=== FILE: README.md ===
# Estrelar funnel: a verified model of its capture, export and client logic

Estrelar is a quiz-to-checkout marketing funnel: a Next.js front end with a small Flask
back end. This project models, in Dafny, the parts of it that decide something:

- **Submission capture.** The Flask `save_email` handler works over an append-only
  `email_submissions` table with an autoincrement id. The Next.js `POST /api/save-email`
  route has the same validation and response shapes but stores nothing. The email page
  guards its submit handler and builds the payload. The per-tab session id lives in
  `sessionStorage`.
- **Spreadsheet and JSON export.** `lib/excel-saver.ts` and `lib/local-db.ts` merge quiz
  keys into a column list, flatten answers into cells, pad every row to every column and
  append one new row. `lib/local-db.ts` also appends a record to a JSON array file.
  `scripts/sql_to_excel.js` builds a whole sheet from the submissions table with its own
  key order and column widths.
- **Client state machines.**
  - The quiz step cursor and its progress bar.
  - The h:m:s offer countdown.
  - The selling page's ten-minute `MM : SS` countdown.
  - The live-notification cycle.
  - The scratch card's alpha-channel count and reveal threshold.

The model has one module per source file:
- `Backend`, `SaveEmailRoute`, `EmailPage`, `Session`;
- `ExcelSaver`, `LocalDb`, `SqlToExcel`;
- `QuizFlow`, `Countdown`, `Selling`, `Notifications`, `ScratchCard`.

Shared modules hold what several of them use:
- `Wrappers`: `Option` and `Result`.
- `JsText`: the JavaScript string operations the code calls (`trim`, `padStart`,
  `String(n)`, `parseInt`, `substring`, `startsWith`, `replace`, `join`).
- `Json`: a JSON value, with Python and JavaScript truthiness and `String(v)`.
- `Api`: the response shapes.
- `Sheet`: a row as an ordered list of cells, column padding, and the character-order
  sort that stands for `Array.prototype.sort()`.

What changes state in the source is a class with `modifies` clauses:
- the submissions table, the session storage and the email form;
- the spreadsheet file and the JSON file;
- the quiz, the timers, the notification feed and the scratch card.

Each such method's postcondition ties the new state to a specification, and the
specification's properties are proved as lemmas. Clocks, random text, `json.dumps`,
`localeCompare`, storage faults and the pixel data are parameters.

Some things need a stated reading:
- A JSON request body is a `Result`: `Failure` carries the parse error.
- A stored timestamp is an `IsoTime` instant rendered by an abstract function.
- A 300 ms or 100 ms `setTimeout` step is taken as immediate.
- The email page's submit button is `EmailPage.SubmitDisabled`
  (components/EmailPage.tsx:171). `EmailPage.GuardPasses` is the handler's guard.

## Model

| member | source | states |
|---|---|---|
| Backend.SubmissionTable.constructor | backend_example.py:26-34 | A fresh database has no table, no rows, and the autoincrement counter at 1. |
| Backend.SubmissionTable.InitDb | backend_example.py:28-46 | Afterwards the table exists. An existing table keeps its rows and id counter, so the call is idempotent. |
| Backend.BindCheck | backend_example.py:70-74 | The insert's parameters bind exactly when none of the six raw fields is a list, a dict or an integer outside 64 bits. |
| Backend.SubmissionTable.SaveEmail | backend_example.py:49-92 | 400 with 'Email and session ID are required' exactly when extraction succeeds and `email` or `sessionId` is falsy. 200 echoing `sessionId`, with exactly one new row holding the extracted fields under the next id, exactly when the table exists, binding succeeds and no storage fault occurs. 500 with 'Failed to save email' otherwise. Its details are the extraction error, else 'no such table: email_submissions' when the table is missing, else the binding error, else the storage fault's text. No row changes on any non-200 path. |
| Backend.DefaultsOnlyWhenAbsent | backend_example.py:55-61 | The consents default to False, `submittedAt` to now, `createdAt` to None and `quizAnswers` to `{}`, each only when its key is absent. A present key, even one holding null, is taken verbatim. The stored answers are the `dumps` text. |
| Backend.SerialisationBeforeValidation | backend_example.py:57-65 | Serialisation is evaluated before validation: a `dumps` that failed would make the answer 500 even with `email` missing. No parsed request body makes `dumps` fail, so this records the order rather than a reachable response. |
| Backend.NonObjectBodyFails | backend_example.py:52-56 | A body that is not a JSON object fails at the first `.get` with Python's AttributeError text. |
| SaveEmailRoute.Post | app/api/save-email/route.ts:12-64 | 500 'Failed to save email' exactly when the body does not parse or is null, with the parse error, or for a null body the destructuring TypeError's message, as details. 200 with the echoed `sessionId` and the timestamp exactly when the body is an object whose `email` and `sessionId` are JavaScript-truthy. 400 'Email and session ID are required' otherwise. |
| SaveEmailRoute.OnlyRequiredFieldsMatter | app/api/save-email/route.ts:16-47 | Two bodies that agree on `email` and `sessionId` get the same response, whatever their other fields. |
| SaveEmailRoute.HandlersAgreeOnStrings | app/api/save-email/route.ts:19-24 | For string-valued fields the route rejects exactly when the Flask handler does. |
| SaveEmailRoute.HandlersDisagreeOnEmptyList | app/api/save-email/route.ts:19-24 | An empty list as `email` is accepted by the route (JavaScript truthy) but rejected by the Flask handler (Python falsy). |
| EmailPage.RouteAcceptsPayloadIffEmail | components/EmailPage.tsx:34-53 | The route accepts a payload exactly when its trimmed email is non-empty and echoes its session id; otherwise it answers 400. |
| EmailPage.BlankEmailIsSentEmpty | components/EmailPage.tsx:24-35 | An all-space email passes the guard but is sent as the empty string, which the route rejects with 400. |
| EmailPage.EmailForm.constructor | components/EmailPage.tsx:17-20 | Empty email, both boxes unchecked, not submitting, nothing sent or continued. |
| EmailPage.EmailForm.Send | components/EmailPage.tsx:47-53 | The request appends exactly the payload to the requests sent and changes nothing else. |
| EmailPage.EmailForm.HandleSubmit | components/EmailPage.tsx:22-71 | A failing guard changes nothing. A passing guard always continues with the trimmed email and both consents. It sends exactly one payload when `shouldSubmit` holds and metadata is available, and none otherwise. `isSubmitting` is reset to false exactly when `shouldSubmit` held, and otherwise stays true. Every payload sent has `privacyConsent` true. |
| Session.RandomPart | lib/session.ts:12 | The random part is at most 13 characters. |
| Session.GenerateSessionId | lib/session.ts:10-14 | The id is 'session_', then the decimal timestamp, then '_', then at most 13 random characters. |
| Session.GetSessionMetadata | lib/session.ts:47-66 | Without a window: 'server_session' and now. With one: the stored id if non-empty, else a fresh id that is not persisted, and `createdAtISO` for `createdAt`. It fails only on an invalid time. The id is never empty. The fresh id's timestamp and the fallback creation time are two separate clock reads. |
| JsText.ParseIntOfNatToString | lib/session.ts:38-59 | A stored creation time reads back unchanged through `parseInt`. |
| Session.MetadataReadsBackStoredSession | lib/session.ts:55-65 | After a stored id and creation time, the metadata returns exactly them. |
| Session.CreatedAtFallsBackToNow | lib/session.ts:57-59 | With no stored creation time, `createdAt` is now. |
| Session.SessionStorage.GetSessionId | lib/session.ts:21-42 | Without a window it returns 'server_session' and leaves storage alone. A stored non-empty id is returned with no write. Otherwise a new id and its creation time are stored. Afterwards the returned id is stored, so a second call returns it. |
| Session.SessionStorage.ClearSession | lib/session.ts:71-77 | With a window both keys are removed and nothing else changes; without one nothing changes. |
| Sheet.SortKeys | lib/excel-saver.ts:37 | `Array.from(keys).sort()`: a list strictly increasing in character order holding exactly the set's elements. Inside the Basic Multilingual Plane this is JavaScript's UTF-16 code-unit order. |
| Sheet.SortedUnique | lib/excel-saver.ts:37 | Two strictly sorted lists with the same elements are equal, so the sorted key order does not depend on the set's iteration order. |
| Sheet.AnswerOfStringList | lib/excel-saver.ts:103-115 | A list of strings flattens to them joined with ', '. |
| Sheet.PadRow | lib/excel-saver.ts:117-133 | The padded row extends the original, so existing cells are kept. It has every listed column, adds only listed columns missing before, fills each with '' and repeats no column. |
| ExcelSaver.KeyOfColumn | lib/excel-saver.ts:27-29 | A column yields a quiz key exactly when it starts with 'Quiz Q' and has a non-empty suffix, and the column is 'Quiz Q' plus that key. |
| ExcelSaver.RowKeysNamed | lib/excel-saver.ts:26-31 | The keys found in a row are exactly the non-empty k for which the row has a 'Quiz Q'+k column. |
| ExcelSaver.ColumnKeysNamed | lib/excel-saver.ts:25-32 | The keys found in the existing rows are exactly the non-empty k for which some row has a 'Quiz Q'+k column. |
| ExcelSaver.GetAllQuizKeys | lib/excel-saver.ts:21-38 | The result is sorted and duplicate-free. It holds exactly the keys of existing quiz columns plus the keys of the new answers. |
| ExcelSaver.BaseCells | lib/excel-saver.ts:93-100 | The new row starts with the seven base columns in order. |
| ExcelSaver.BaseIsNotQuiz | lib/excel-saver.ts:66-79 | No base column is a quiz column. |
| ExcelSaver.MergeColumns | lib/excel-saver.ts:66-88 | With no starting columns: the base columns, then 'Quiz Q'+k in key order. Otherwise the old list followed by exactly the quiz columns it lacks, in key order. No column appears twice, and every key has its column. |
| ExcelSaver.MergedColumnList | lib/excel-saver.ts:57-88 | The merged list has every first-row (or base) column and every quiz key's column, and only those. With no existing rows it is exactly the base columns, then the quiz columns in key order. |
| ExcelSaver.FreshHeaderOf | lib/excel-saver.ts:66-79 | The base columns followed by the columns of the strictly sorted answer keys form a new workbook's header. |
| ExcelSaver.FreshHeaderUnique | lib/excel-saver.ts:37 | A new workbook's header is fixed by the answers: two headers with the same keys in strictly sorted order are equal. |
| ExcelSaver.BuildNewRow | lib/excel-saver.ts:90-122 | The new row fails exactly when the answers are undefined or null and there is a key, since reading them throws. Otherwise it starts with the base cells and covers every column. Each quiz column holds the flattened answer. Every other added cell is '' in a listed column. No column repeats. |
| ExcelSaver.NewRow | lib/excel-saver.ts:90-122 | The same failure condition. On success the row satisfies `NewRowOf`: base cells, all columns, flattened answers, '' elsewhere. With no existing rows its columns are the base columns, then the quiz columns in key order. |
| ExcelSaver.PadRows | lib/excel-saver.ts:124-133 | Each existing row is padded to every column. Its cells are kept and only '' cells for merged columns are added. |
| ExcelSaver.MergeRows | lib/excel-saver.ts:44-136 | It fails exactly when the new answers are undefined or null while some quiz key exists. Otherwise the output is every existing row padded, then exactly one new row. |
| ExcelSaver.SaveSessionToExcel | lib/excel-saver.ts:44-153 | The file becomes the merge exactly when the read, the merge and the opening for writing all succeed. Otherwise the first failure in that order is returned to the caller, and the file is unchanged. For a new workbook the header is the base columns, then the quiz columns in key order. |
| LocalDb.RecordOf | lib/local-db.ts:34-37 | The stored record has exactly the six base keys, plus `name` when defined and `quizAnswers` when not undefined, since `JSON.stringify` drops undefined. Each value is the session's own: strings as strings, consents as booleans, null answers as `null`, object answers as that object. |
| LocalDb.ReadList | lib/local-db.ts:23-31 | A missing or blank file reads as the empty list. A JSON array reads as its items. Anything else makes `push` throw. |
| LocalDb.AfterSave | lib/local-db.ts:21-37 | A save succeeds exactly when the file reads as a list. The file then holds that list with one more record at the end. |
| LocalDb.SavesAppendInOrder | lib/local-db.ts:21-37 | Successive saves onto a stored array append the records in call order and leave earlier records unchanged. |
| LocalDb.SavesFromNothing | lib/local-db.ts:25-34 | From a missing or blank file, a run of saves leaves exactly the saved records. |
| LocalDb.SaveSessionToLocalDB | lib/local-db.ts:21-40 | Without an error the file becomes `AfterSave` of the old one. On a read error, or a write that fails before the file is opened, it is unchanged. |
| LocalDb.SaveSessionToExcel | lib/local-db.ts:45-156 | Same merge as the spreadsheet saver. A failure of the merge, the read, or the opening for writing leaves the file unchanged and is swallowed. |
| SqlToExcel.CollectQuizKeys | scripts/sql_to_excel.js:31-39 | The keys are duplicate-free and are exactly those of submissions whose answers parse to an object. |
| SqlToExcel.Insert | scripts/sql_to_excel.js:41-49 | Insertion under the comparator is a permutation: it adds exactly the element. |
| SqlToExcel.InsertKeepsSorted | scripts/sql_to_excel.js:41-49 | Inserting a numeric key into a numerically sorted list keeps it sorted. |
| SqlToExcel.SortKeys | scripts/sql_to_excel.js:41-49 | The sorted list is a permutation of the keys, and numerically ascending when every key parses. |
| SqlToExcel.SortQuizKeys | scripts/sql_to_excel.js:41-49 | The sorted keys are duplicate-free and exactly the collected ones, in `parseInt` order when every key parses. |
| SqlToExcel.BaseCells | scripts/sql_to_excel.js:69-78 | A row starts with the eight base columns in order. |
| SqlToExcel.BuildRow | scripts/sql_to_excel.js:68-103 | A row is the base cells, then one cell per key in key order. Its columns are the base columns then the quiz columns, with no repeat. |
| SqlToExcel.UnparsedRowIsBlank | scripts/sql_to_excel.js:95-100 | When the answers do not parse, every quiz cell of the row is ''. |
| SqlToExcel.RowReadsAnswers | scripts/sql_to_excel.js:81-94 | A row's quiz column holds the flattened answer for its key. |
| SqlToExcel.BuildRows | scripts/sql_to_excel.js:68-103 | One row per submission, in query order. |
| SqlToExcel.ColumnWidths | scripts/sql_to_excel.js:109 | Each width is max(length of the column name, 15). |
| SqlToExcel.Convert | scripts/sql_to_excel.js:22-110 | There is no sheet exactly when there are no submissions. Otherwise it returns the sorted keys, the base-then-quiz columns, the widths, and one row per submission. |
| SqlToExcel.Run | scripts/sql_to_excel.js:15-132 | Exit 0 exactly when the query succeeds and either nothing is to be written or the write succeeds, and exit 1 otherwise. The file is written exactly when the exit code is 0 and there are submissions, and it then holds the export's rows. Otherwise it is unchanged. |
| QuizFlow.Progress | components/QuizFlow.tsx:33 | Progress lies in (0, 100] and is 100 exactly on the last step. |
| QuizFlow.ProgressGrows | components/QuizFlow.tsx:33 | Each step forward strictly increases progress. |
| QuizFlow.Quiz.constructor | components/QuizFlow.tsx:9-11 | The quiz starts on step 0 with no answers, over a non-empty step list. |
| QuizFlow.Quiz.HandleAnswer | components/QuizFlow.tsx:13-25 | The answer replaces the entry under the current step and no other. The cursor advances by one exactly when it is before the last step; otherwise the quiz reports completion and stays. The cursor stays within the steps. |
| QuizFlow.Quiz.HandleBack | components/QuizFlow.tsx:27-31 | Back moves one step down from a positive step. On step 0, where the button is disabled (line 86), it does nothing. Answers are kept. |
| Countdown.Tick | components/CountdownTimer.tsx:26-39 | The tick takes a second, borrowing from minutes and then hours. 00:00:00 is fixed and no field turns negative. In range, the total seconds drop by exactly one until zero. |
| Countdown.TicksCountDown | components/CountdownTimer.tsx:26-39 | After k ticks in range, the total is max(total - k, 0). |
| Countdown.RunsOutAfterTotal | components/CountdownTimer.tsx:13-39 | A clock in range reads 00:00:00 exactly from the tick that uses up its last second, which is 86400 ticks for the 24:00:00 default. |
| Countdown.ZeroIsFixed | components/CountdownTimer.tsx:26-39 | Once at 00:00:00 the clock stays there. |
| Countdown.FormatTime | components/CountdownTimer.tsx:46 | 0..99 become two digits that read back as the value; larger values are unpadded. |
| Countdown.Timer.constructor | components/CountdownTimer.tsx:12-21 | The timer starts at its props. |
| Countdown.Timer.OnInterval | components/CountdownTimer.tsx:24-41 | Each callback replaces the state by its tick. |
| Selling.Tick | components/SellingPage.tsx:35-41 | Positive t becomes t-1, anything else becomes 0, and the result is never negative. |
| Selling.TicksCountDown | components/SellingPage.tsx:33-42 | From t ≥ 0, k ticks leave max(t - k, 0). |
| Selling.CountdownShownForTenMinutes | components/SellingPage.tsx:16-127 | Starting from 600, the countdown shows exactly for the first 600 ticks, then the logo. |
| Selling.SplitIsExact | components/SellingPage.tsx:116-117 | For t ≥ 0, minutes·60 + seconds = t, with seconds in 0..59. |
| Selling.FormattedTimeReadsBack | components/SellingPage.tsx:116-118 | Below 100 minutes the text is two digits, ' : ', two digits, and the two numbers read back give t. |
| Selling.OfferTimer.constructor | components/SellingPage.tsx:16 | The countdown starts at 600 with the interval running. |
| Selling.OfferTimer.OnInterval | components/SellingPage.tsx:33-45 | Each callback ticks, and clears the interval exactly when it finds the time at zero. |
| Notifications.Next | components/LiveNotifications.tsx:14-22 | Below the total it appends the next message and keeps the shown ones. At the total it resets to empty. A prefix of the list stays a prefix. |
| Notifications.FillsUp | components/LiveNotifications.tsx:14-18 | From empty, the first k ≤ total ticks show the first k messages in order. |
| Notifications.Period | components/LiveNotifications.tsx:14-22 | From empty, the list is empty again after total+1 ticks, and the cycle repeats. |
| Notifications.Feed.constructor | components/LiveNotifications.tsx:8 | The feed starts empty. |
| Notifications.Feed.OnInterval | components/LiveNotifications.tsx:13-22 | Each callback applies `Next`, and the shown list stays a prefix of the messages, so it is never longer. |
| ScratchCard.Transparent | components/ScratchCard.tsx:46-50 | The clear count never exceeds the pixels scanned. |
| ScratchCard.AlphaOnly | components/ScratchCard.tsx:46-47 | Only the alpha bytes, at indices 3, 7, 11, …, affect the count. |
| ScratchCard.AllOrNothing | components/ScratchCard.tsx:46-50 | With all alphas below 128 every pixel counts; with none below 128 no pixel counts. |
| ScratchCard.CountTransparent | components/ScratchCard.tsx:42-50 | The stride-4 loop from index 3 counts exactly the pixels whose alpha is below 128. |
| ScratchCard.Percent | components/ScratchCard.tsx:52 | The percentage lies in [0, 100]. It is above 50 exactly when more than half the pixels are clear, and 100 exactly when all are. |
| ScratchCard.FilledPercentage | components/ScratchCard.tsx:35-53 | It is 0 without a canvas or context, and otherwise the clear share of the 230×230 image, in [0, 100]. |
| ScratchCard.CanvasOpacity | components/ScratchCard.tsx:179 | The overlay is hidden (0) exactly when the percentage is above 50, and shown (1) otherwise. |
| ScratchCard.Card.constructor | components/ScratchCard.tsx:13-15 | The card starts at 0 % with no confetti and no modal. |
| ScratchCard.Card.Scratch | components/ScratchCard.tsx:55-112 | Without a canvas nothing changes. Otherwise the percentage is recorded, and confetti and the modal start exactly when it exceeds 50 and the modal was not yet shown. Whenever the modal opens, the overlay is hidden. |

## Left out

- Presentation: all markup, styling, animation, the confetti frames, the readiness-chart SVG loading and the pages with no logic. NamePage's one-line name check is not part of this model.
- The Flask health endpoint, and the create-session, update-lead and update-dropoff routes. These routes call lib functions that are not part of this model.
- Storage and I/O are abstract state:
  - The SQLite table is a row list plus an id counter; SQLite type affinity is not modelled.
  - The workbook is its list of rows.
  - The JSON file is absent, blank, a parsed value or unparsable text.
  - `sessionStorage` is a string map.
  - A failing read or write is an explicit fault parameter, and it strikes before the file is opened.
- A write that fails part-way is not modelled. `fs.writeFileSync` and `XLSX.writeFile` truncate the file first, so a failure during the write (a full disk, an I/O error) leaves it empty or partial, and the next save reads it as blank or unparsable. The four savers (`ExcelSaver.SaveSessionToExcel`, `LocalDb.SaveSessionToLocalDB`, `LocalDb.SaveSessionToExcel`, `SqlToExcel.Run`) promise an unchanged file only for faults before the file is opened.
- `json.dumps`, `JSON.stringify` and `JSON.parse` are not modelled as text. Serialisation is a parameter, and a stored file is its parsed value.
- `XLSX.utils.sheet_to_json` and `json_to_sheet` are not modelled. The sheet's header order is taken to be the merged column list, which `json_to_sheet` derives from the rows' key order.
- Object key order: JavaScript lists integer-like keys first in `Object.keys`. The model takes the first existing row's cell order as given.
- Python exception texts other than the attribute and binding errors are not reproduced. A storage fault carries its own text.
- Backend.SubmissionTable.SaveEmail: the success log line (backend_example.py:78) is not modelled. It runs after `conn.commit()` inside the `try`, so if printing it raises (say, a non-UTF-8 standard output rejecting the check-mark), the source answers 500 with the row already committed. The model's "no row changes off the 200 path" holds only when logging succeeds. The other `print` and `console.log` calls are dropped too.
- Inherited properties: `quizAnswers[key]` (lib/excel-saver.ts:105, scripts/sql_to_excel.js:83) reads through the prototype chain. A key such as `constructor` or `toString`, taken from another row's column or another submission, yields an inherited function whose `String` text lands in the cell. The model reads own keys only (`ExcelSaver.AnswerOf`, `Json.JsGet`) and gives ''. Likewise the padding tests `!(col in newRow)` and `!(col in updatedRow)` (lib/excel-saver.ts:119,128; lib/local-db.ts:127,136) see inherited properties, so the source never pads a column named `constructor` or `toString`, where the model's `Has` pads it with ''.
- Clocks and randomness are parameters: `Date.now`, `datetime.now`, ISO formatting and `Math.random().toString(36)`.
- `localeCompare` is a parameter. Key order is proved only for all-numeric keys; ties and V8's sort algorithm are not modelled.
- Strings are sequences of Unicode scalar values, with no Unicode normalisation. Order and length agree with JavaScript's UTF-16 code units only inside the Basic Multilingual Plane.
- Sheet.SortKeys: a character outside the Basic Multilingual Plane sorts after U+E000–U+FFFF here, but before them in JavaScript, whose `sort()` compares its high surrogate.
- SqlToExcel.ColumnWidths: a character outside the Basic Multilingual Plane counts once in a column name's length here, where `col.length` counts its two code units. `JsText.PadStart` and `JsText.Substring` count the same way.
- Numbers:
  - JSON numbers in answers are integers; fractions and exponents are not modelled.
  - Progress and the scratch percentage use exact rationals instead of floating point.
- Concurrency and timers:
  - Concurrent requests and read-modify-write races on the files are not modelled.
  - A `setTimeout` delay is an immediate step, so two answers within 300 ms are not modelled. Each would advance the quiz from its own render's step.
  - Two scratch strokes within the modal's 100 ms delay could both start confetti; the model opens the modal at once.
- ScratchCard.Card.Scratch: the drawing of the stroke is not modelled. The method receives the image data after erasure.
- The column widths are part of the export value; writing them into the worksheet object is I/O.

=== FILE: api.dfy ===
/** The JSON responses of `POST /api/save-email`, shared by the Flask and the Next.js handlers. */
module Api {
  import opened Json

  const RequiredMessage := "Email and session ID are required"
  const SavedMessage := "Email saved successfully"
  const FailedMessage := "Failed to save email"

  datatype Response =
    | Saved(sessionId: Value, timestamp: string)  // 200 {success, message, sessionId, timestamp}
    | Rejected(error: string)                      // 400 {error}
    | Failed(error: string, details: string)       // 500 {error, details}
  {
    function Status(): nat {
      match this
      case Saved(_, _) => 200
      case Rejected(_) => 400
      case Failed(_, _) => 500
    }

    /** The JSON body sent with the status. */
    function Body(): map<string, Value> {
      match this
      case Saved(id, t) =>
        map["success" := JBool(true), "message" := JStr(SavedMessage), "sessionId" := id, "timestamp" := JStr(t)]
      case Rejected(e) => map["error" := JStr(e)]
      case Failed(e, d) => map["error" := JStr(e), "details" := JStr(d)]
    }
  }
}

=== FILE: backend.dfy ===
/**
 * The Flask backend: `init_db` creates the append-only `email_submissions` table and
 * `save_email` validates one request body and inserts at most one row.
 *
 * The SQLite file is the `SubmissionTable` object. Everything the handler gets from
 * outside is a parameter: the parsed body (`request.json`), `json.dumps`, the two
 * `datetime.now().isoformat()` readings, SQLite's `CURRENT_TIMESTAMP`, and a storage
 * fault (disk full, locked file) that makes the insert raise.
 */
module Backend {
  import opened Wrappers
  import opened Json
  import opened Api
  import JsText

  /** The seven values `save_email` extracts, in the order of the INSERT's placeholders. */
  datatype Fields = Fields(
    sessionId: Value,
    email: Value,
    quizAnswers: string,
    privacyConsent: Value,
    marketingConsent: Value,
    createdAt: Value,
    submittedAt: Value)

  /** One row of `email_submissions`. */
  datatype Row = Row(id: nat, fields: Fields, createdTimestamp: string)

  /**
   * Lines 52-61: read the body and apply the defaults. A default is used only when the
   * key is absent; a key present with `null` keeps `null`. `quizAnswers` is serialised
   * here, before any validation. The failure carries `str(e)` of the exception:
   * the body was not JSON, the body is not an object (`.get` does not exist), or
   * `json.dumps` raised.
   */
  function Extract(body: Result<Value, string>, dumps: Value -> Result<string, string>, now: string)
    : Result<Fields, string>
  {
    if body.Failure? then Failure(body.error)
    else if !body.value.JObj? then Failure("'" + PyTypeName(body.value) + "' object has no attribute 'get'")
    else
      var d := body.value.fields;
      match dumps(PyGet(d, "quizAnswers", JObj(map[])))
      case Failure(e) => Failure(e)
      case Success(text) =>
        Success(Fields(
          PyGet(d, "sessionId", JNull),
          PyGet(d, "email", JNull),
          text,
          PyGet(d, "privacyConsent", JBool(false)),
          PyGet(d, "marketingConsent", JBool(false)),
          PyGet(d, "createdAt", JNull),
          PyGet(d, "submittedAt", JStr(now))))
  }

  /** Line 64: `not email or not session_id` rejects. */
  predicate HasRequired(f: Fields) {
    PyTruthy(f.email) && PyTruthy(f.sessionId)
  }

  /**
   * The sqlite3 module binds None, booleans, 64-bit integers and strings; a list or a
   * dict, or an integer outside 64 bits, makes `execute` raise.
   */
  predicate Bindable(v: Value) {
    match v
    case JArr(_) => false
    case JObj(_) => false
    case JNum(n) => -0x8000_0000_0000_0000 <= n < 0x8000_0000_0000_0000
    case _ => true
  }

  /** The message `execute` raises for a value it cannot bind as parameter `index` (1-based). */
  function BindError(index: nat, v: Value): string {
    if v.JNum? then "Python int too large to convert to SQLite INTEGER"
    else "Error binding parameter " + JsText.NatToString(index) + ": type '" + PyTypeName(v) + "' is not supported"
  }

  /** The error of the first of the seven INSERT parameters that cannot be bound, if any. */
  function BindCheck(f: Fields): (r: Option<string>)
    ensures r.None? <==> (Bindable(f.sessionId) && Bindable(f.email) && Bindable(f.privacyConsent)
                          && Bindable(f.marketingConsent) && Bindable(f.createdAt) && Bindable(f.submittedAt))
  {
    if !Bindable(f.sessionId) then Some(BindError(1, f.sessionId))
    else if !Bindable(f.email) then Some(BindError(2, f.email))
    else if !Bindable(f.privacyConsent) then Some(BindError(4, f.privacyConsent))
    else if !Bindable(f.marketingConsent) then Some(BindError(5, f.marketingConsent))
    else if !Bindable(f.createdAt) then Some(BindError(6, f.createdAt))
    else if !Bindable(f.submittedAt) then Some(BindError(7, f.submittedAt))
    else None
  }

  /** The text of sqlite3's error for an insert into a table that was never created. */
  const NoTableMessage := "no such table: email_submissions"

  /** The SQLite file holding `email_submissions`. */
  class SubmissionTable {
    /** Whether `CREATE TABLE` has run. */
    var created: bool
    var rows: seq<Row>
    /** The AUTOINCREMENT counter: the id the next insert gets. */
    var nextId: nat

    /**
     * Ids are positive, below the counter and strictly increasing in insertion order;
     * every stored row has a non-empty session id and email.
     */
    ghost predicate Valid()
      reads this
    {
      && (!created ==> rows == [])
      && 1 <= nextId
      && (forall i :: 0 <= i < |rows| ==> 1 <= rows[i].id < nextId)
      && (forall i, j :: 0 <= i < j < |rows| ==> rows[i].id < rows[j].id)
      && (forall i :: 0 <= i < |rows| ==> HasRequired(rows[i].fields))
    }

    /** A database file before `init_db` has run. */
    constructor ()
      ensures Valid() && !created && rows == [] && nextId == 1
    {
      created, rows, nextId := false, [], 1;
    }

    /** `init_db`: CREATE TABLE IF NOT EXISTS, so a second run changes nothing. */
    method InitDb()
      requires Valid()
      modifies this
      ensures Valid() && created
      ensures old(created) ==> rows == old(rows) && nextId == old(nextId)
      ensures !old(created) ==> rows == [] && nextId == 1
    {
      if !created {
        created, rows, nextId := true, [], 1;
      }
    }

    /**
     * `save_email`. The answer is 400 exactly when the body was read and serialised but
     * lacks a truthy `email` or `sessionId`; 200 exactly when, in addition, the table
     * exists, every value can be bound and the store does not fail; 500 otherwise.
     * A 200 appends exactly one row with the next id and the extracted values; every
     * other outcome leaves the table as it was.
     */
    method SaveEmail(body: Result<Value, string>, dumps: Value -> Result<string, string>,
                     now: string, insertClock: string, responseClock: string, fault: Option<string>)
      returns (resp: Response)
      requires Valid()
      modifies this
      ensures Valid() && created == old(created)
      ensures var x := Extract(body, dumps, now);
        && (resp.Rejected? <==> x.Success? && !HasRequired(x.value))
        && (resp.Saved? <==> x.Success? && HasRequired(x.value) && old(created)
                             && BindCheck(x.value).None? && fault.None?)
        && (x.Failure? ==> resp == Failed(FailedMessage, x.error))
        && (resp.Saved? ==> && resp == Saved(x.value.sessionId, responseClock)
                            && rows == old(rows) + [Row(old(nextId), x.value, insertClock)]
                            && nextId == old(nextId) + 1)
      ensures resp.Rejected? ==> resp.error == RequiredMessage
      ensures resp.Failed? ==> resp.error == FailedMessage
      ensures var x := Extract(body, dumps, now);
        resp.Failed? && x.Success? ==>
          resp.details == (if !old(created) then NoTableMessage
                           else if BindCheck(x.value).Some? then BindCheck(x.value).value
                           else fault.value)
      ensures !resp.Saved? ==> rows == old(rows) && nextId == old(nextId)
    {
      var x := Extract(body, dumps, now);
      if x.Failure? {
        return Failed(FailedMessage, x.error);
      }
      var f := x.value;
      if !(PyTruthy(f.email) && PyTruthy(f.sessionId)) {
        return Rejected(RequiredMessage);
      }
      if !created {
        return Failed(FailedMessage, NoTableMessage);
      }
      var bind := BindCheck(f);
      if bind.Some? {
        return Failed(FailedMessage, bind.value);
      }
      if fault.Some? {
        return Failed(FailedMessage, fault.value);
      }
      rows := rows + [Row(nextId, f, insertClock)];
      nextId := nextId + 1;
      resp := Saved(f.sessionId, responseClock);
    }
  }

  // ---- properties of the extraction step ----

  /**
   * Defaults apply only to absent keys: a consent flag sent as `null` is stored as
   * `null`, an absent one as False, and an absent `quizAnswers` is serialised as `{}`.
   */
  lemma DefaultsOnlyWhenAbsent(d: map<string, Value>, dumps: Value -> Result<string, string>, now: string)
    requires dumps(PyGet(d, "quizAnswers", JObj(map[]))).Success?
    ensures var x := Extract(Success(JObj(d)), dumps, now);
      && x.Success?
      && x.value.privacyConsent == (if "privacyConsent" in d then d["privacyConsent"] else JBool(false))
      && x.value.marketingConsent == (if "marketingConsent" in d then d["marketingConsent"] else JBool(false))
      && x.value.submittedAt == (if "submittedAt" in d then d["submittedAt"] else JStr(now))
      && x.value.createdAt == (if "createdAt" in d then d["createdAt"] else JNull)
      && x.value.quizAnswers == dumps(if "quizAnswers" in d then d["quizAnswers"] else JObj(map[])).value
  {
  }

  /**
   * The order of evaluation: `json.dumps` (line 57) runs before the check of line 63, so
   * a `dumps` that raised would give 500 even with `email` missing. `dumps` never raises
   * on a value Flask's JSON parser produced, so no request reaches this case; the lemma
   * records the order, not a reachable 500.
   */
  lemma SerialisationBeforeValidation(d: map<string, Value>, dumps: Value -> Result<string, string>, now: string)
    requires "email" !in d
    requires dumps(PyGet(d, "quizAnswers", JObj(map[]))).Failure?
    ensures Extract(Success(JObj(d)), dumps, now).Failure?
  {
  }

  /** A body that is JSON but not an object fails on `.get` and yields 500, never 400. */
  lemma NonObjectBodyFails(v: Value, dumps: Value -> Result<string, string>, now: string)
    requires !v.JObj?
    ensures Extract(Success(v), dumps, now) == Failure("'" + PyTypeName(v) + "' object has no attribute 'get'")
  {
  }
}

=== FILE: countdown.dfy ===
/**
 * The hours:minutes:seconds offer countdown of `components/CountdownTimer.tsx`. Every
 * second the interval replaces the state by `Tick` of it; the display pads each field
 * to two digits.
 */
module Countdown {
  import JsText

  datatype Time = Time(hours: int, minutes: int, seconds: int)

  /** The default props: 24:00:00. */
  const Default := Time(24, 0, 0)

  /** Minutes and seconds are clock fields and hours are not negative. */
  predicate InRange(t: Time) {
    t.hours >= 0 && 0 <= t.minutes <= 59 && 0 <= t.seconds <= 59
  }

  predicate NonNegative(t: Time) {
    t.hours >= 0 && t.minutes >= 0 && t.seconds >= 0
  }

  function TotalSeconds(t: Time): int {
    t.hours * 3600 + t.minutes * 60 + t.seconds
  }

  /**
   * The interval's updater: take a second, borrowing from the minutes and then from the
   * hours; 00:00:00 stays put.
   */
  function Tick(t: Time): (r: Time)
    ensures t.seconds > 0 ==> r == Time(t.hours, t.minutes, t.seconds - 1)
    ensures t.seconds <= 0 && t.minutes > 0 ==> r == Time(t.hours, t.minutes - 1, 59)
    ensures t.seconds <= 0 && t.minutes <= 0 && t.hours > 0 ==> r == Time(t.hours - 1, 59, 59)
    ensures t.seconds <= 0 && t.minutes <= 0 && t.hours <= 0 ==> r == t
    ensures NonNegative(t) ==> NonNegative(r)
    ensures InRange(t) ==> InRange(r)
    ensures InRange(t) ==> TotalSeconds(r) == if TotalSeconds(t) == 0 then 0 else TotalSeconds(t) - 1
  {
    if t.seconds > 0 then Time(t.hours, t.minutes, t.seconds - 1)
    else if t.minutes > 0 then Time(t.hours, t.minutes - 1, 59)
    else if t.hours > 0 then Time(t.hours - 1, 59, 59)
    else t
  }

  /** The state after `k` ticks. */
  function Ticks(t: Time, k: nat): Time {
    if k == 0 then t else Tick(Ticks(t, k - 1))
  }

  /** A clock in range shows 00:00:00 after exactly as many ticks as it has seconds left, and not before. */
  lemma {:induction false} TicksCountDown(t: Time, k: nat)
    requires InRange(t)
    ensures InRange(Ticks(t, k))
    ensures TotalSeconds(Ticks(t, k)) == if k <= TotalSeconds(t) then TotalSeconds(t) - k else 0
  {
    if k > 0 {
      TicksCountDown(t, k - 1);
    }
  }

  /** Zero seconds left in range is 00:00:00 itself. */
  lemma ZeroTotalIsMidnight(t: Time)
    requires InRange(t)
    ensures TotalSeconds(t) == 0 <==> t == Time(0, 0, 0)
  {
  }

  /**
   * A clock in range shows 00:00:00 exactly from the tick that uses up its last second
   * on; the default clock, 86400 seconds, runs out after one day.
   */
  lemma RunsOutAfterTotal(t: Time, k: nat)
    requires InRange(t)
    ensures Ticks(t, k) == Time(0, 0, 0) <==> k >= TotalSeconds(t)
  {
    TicksCountDown(t, k);
    ZeroTotalIsMidnight(Ticks(t, k));
  }

  /** Once at 00:00:00 the clock stays there. */
  lemma {:induction false} ZeroIsFixed(k: nat)
    ensures Ticks(Time(0, 0, 0), k) == Time(0, 0, 0)
  {
    if k > 0 {
      ZeroIsFixed(k - 1);
    }
  }

  /** `formatTime`: `String(value).padStart(2, '0')`. */
  function FormatTime(value: int): (r: string)
    ensures 0 <= value <= 99 ==> |r| == 2 && JsText.AllDigits(r) && JsText.DecimalValue(r) == value
    ensures value >= 100 ==> r == JsText.NatToString(value)
  {
    var r := JsText.PadStart(JsText.IntToString(value), 2, '0');
    if 0 <= value <= 99 then JsText.PadTwoReadsBack(value); r else r
  }

  /** The timer component's state. */
  class Timer {
    var timeLeft: Time

    /** The props, 24:00:00 unless given. */
    constructor (start: Time)
      ensures timeLeft == start
    {
      timeLeft := start;
    }

    /** One interval callback: `setTimeLeft(prev => Tick(prev))`. */
    method OnInterval()
      modifies this
      ensures timeLeft == Tick(old(timeLeft))
    {
      var hours, minutes, seconds := timeLeft.hours, timeLeft.minutes, timeLeft.seconds;
      if seconds > 0 {
        seconds := seconds - 1;
      } else if minutes > 0 {
        minutes := minutes - 1;
        seconds := 59;
      } else if hours > 0 {
        hours := hours - 1;
        minutes := 59;
        seconds := 59;
      }
      timeLeft := Time(hours, minutes, seconds);
    }
  }
}

=== FILE: emailpage.dfy ===
/**
 * The email-capture form (`components/EmailPage.tsx`): the submit guard, the payload it
 * posts, the `isSubmitting` flag, and the call to `onContinue` that happens whatever
 * the request's outcome.
 */
module EmailPage {
  import opened Wrappers
  import opened Json
  import JsText
  import Session
  import Api
  import SaveEmailRoute

  /** The `submissionData` object posted to the save-email endpoint. */
  datatype Payload = Payload(
    email: string,
    sessionId: string,
    createdAt: Option<Session.IsoTime>,
    privacyConsent: bool,
    marketingConsent: bool,
    quizAnswers: map<string, Value>,
    submittedAt: Session.IsoTime)

  /** The arguments `onContinue` receives. */
  datatype Continuation = Continuation(email: string, privacyConsent: bool, marketingConsent: bool)

  /**
   * Lines 34-42: the email is trimmed, a non-empty `sessionId` prop wins over the
   * metadata id, and absent quiz answers become `{}`.
   */
  function BuildPayload(email: string, privacy: bool, marketing: bool, sessionIdProp: Option<string>,
                        meta: Session.Metadata, quizAnswers: Option<map<string, Value>>,
                        submittedAt: Session.IsoTime): (p: Payload)
    ensures p.email == JsText.Trim(email)
    ensures p.sessionId == (if sessionIdProp.Some? && sessionIdProp.value != "" then sessionIdProp.value
                            else meta.sessionId)
    ensures p.quizAnswers == (if quizAnswers.Some? then quizAnswers.value else map[])
    ensures p.privacyConsent == privacy && p.marketingConsent == marketing
  {
    Payload(
      JsText.Trim(email),
      if sessionIdProp.Some? && sessionIdProp.value != "" then sessionIdProp.value else meta.sessionId,
      meta.createdAtIso,
      privacy,
      marketing,
      if quizAnswers.Some? then quizAnswers.value else map[],
      submittedAt)
  }

  /** Line 171: the button is disabled exactly when the email is empty or privacy is unchecked. */
  predicate SubmitDisabled(email: string, privacyChecked: bool) {
    email == "" || !privacyChecked
  }

  /** Line 24: the handler does anything only when this holds. */
  predicate GuardPasses(email: string, privacyChecked: bool, isSubmitting: bool) {
    email != "" && privacyChecked && !isSubmitting
  }

  /** `JSON.stringify(submissionData)` parsed back by the server; `iso` renders an instant. */
  function PayloadJson(p: Payload, iso: Session.IsoTime -> string): Value {
    var base := map[
      "email" := JStr(p.email),
      "sessionId" := JStr(p.sessionId),
      "privacyConsent" := JBool(p.privacyConsent),
      "marketingConsent" := JBool(p.marketingConsent),
      "quizAnswers" := JObj(p.quizAnswers),
      "submittedAt" := JStr(iso(p.submittedAt))];
    JObj(if p.createdAt.Some? then base["createdAt" := JStr(iso(p.createdAt.value))] else base)
  }

  /**
   * A posted payload is accepted by the save-email route exactly when its trimmed email
   * is non-empty, and the route echoes its session id.
   */
  lemma RouteAcceptsPayloadIffEmail(p: Payload, iso: Session.IsoTime -> string, now: string)
    requires p.sessionId != ""
    ensures var r := SaveEmailRoute.Post(Success(PayloadJson(p, iso)), now);
      && (r.Saved? <==> p.email != "")
      && (r.Saved? ==> r.sessionId == JStr(p.sessionId))
      && (!r.Saved? ==> r.Status() == 400)
  {
    var d := PayloadJson(p, iso).fields;
    assert d["email"] == JStr(p.email) && d["sessionId"] == JStr(p.sessionId);
  }

  /**
   * An email of only white space passes the guard, is sent as the empty string, and the
   * route answers 400.
   */
  lemma BlankEmailIsSentEmpty(email: string, marketing: bool, sessionIdProp: Option<string>,
                              meta: Session.Metadata, quizAnswers: Option<map<string, Value>>,
                              submittedAt: Session.IsoTime, iso: Session.IsoTime -> string, now: string)
    requires email != [] && forall k :: 0 <= k < |email| ==> JsText.IsJsSpace(email[k])
    requires meta.sessionId != ""
    ensures GuardPasses(email, true, false)
    ensures var p := BuildPayload(email, true, marketing, sessionIdProp, meta, quizAnswers, submittedAt);
      p.email == "" && SaveEmailRoute.Post(Success(PayloadJson(p, iso)), now).Status() == 400
  {
    var p := BuildPayload(email, true, marketing, sessionIdProp, meta, quizAnswers, submittedAt);
    RouteAcceptsPayloadIffEmail(p, iso, now);
  }

  /** The form's React state, with the requests it has sent and the `onContinue` calls it has made. */
  class EmailForm {
    var email: string
    var privacyChecked: bool
    var marketingChecked: bool
    var isSubmitting: bool
    /** The payloads handed to `fetch`, oldest first. */
    var sent: seq<Payload>
    /** The `onContinue` calls, oldest first. */
    var continued: seq<Continuation>

    /** The form as it first renders. */
    constructor ()
      ensures email == "" && !privacyChecked && !marketingChecked && !isSubmitting
      ensures sent == [] && continued == []
    {
      email, privacyChecked, marketingChecked, isSubmitting := "", false, false, false;
      sent, continued := [], [];
    }

    /** `fetch(API_ENDPOINT, …)`: only ever issued while the form is submitting. */
    method Send(p: Payload)
      requires isSubmitting
      modifies this
      ensures sent == old(sent) + [p]
      ensures email == old(email) && privacyChecked == old(privacyChecked)
      ensures marketingChecked == old(marketingChecked) && isSubmitting == old(isSubmitting)
      ensures continued == old(continued)
    {
      sent := sent + [p];
    }

    /**
     * `handleSubmit`. `meta` is what `getSessionMetadata()` returned or threw; the
     * request's response only reaches the log. When the guard passes, `onContinue`
     * receives the trimmed email and both flags, the flag ends up reset exactly when a
     * request was attempted, and a payload is sent when `shouldSubmit` holds and the
     * metadata was obtained. When it fails, nothing changes.
     */
    method HandleSubmit(shouldSubmit: bool, sessionIdProp: Option<string>,
                        quizAnswers: Option<map<string, Value>>,
                        meta: Result<Session.Metadata, string>, submittedAt: Session.IsoTime)
      modifies this
      ensures email == old(email) && privacyChecked == old(privacyChecked)
      ensures marketingChecked == old(marketingChecked)
      ensures !GuardPasses(old(email), old(privacyChecked), old(isSubmitting)) ==>
        isSubmitting == old(isSubmitting) && sent == old(sent) && continued == old(continued)
      ensures GuardPasses(old(email), old(privacyChecked), old(isSubmitting)) ==>
        && continued == old(continued) + [Continuation(JsText.Trim(email), privacyChecked, marketingChecked)]
        && isSubmitting == !shouldSubmit
        && sent == old(sent) + (if shouldSubmit && meta.Success?
                                then [BuildPayload(email, privacyChecked, marketingChecked, sessionIdProp,
                                                   meta.value, quizAnswers, submittedAt)]
                                else [])
      ensures forall k :: |old(sent)| <= k < |sent| ==> sent[k].privacyConsent
    {
      if email != "" && privacyChecked && !isSubmitting {
        var next := Continuation(JsText.Trim(email), privacyChecked, marketingChecked);
        isSubmitting := true;
        if shouldSubmit {
          if meta.Success? {
            var p := BuildPayload(email, privacyChecked, marketingChecked, sessionIdProp,
                                  meta.value, quizAnswers, submittedAt);
            Send(p);
          }
          isSubmitting := false;
        }
        continued := continued + [next];
      }
    }
  }
}

=== FILE: excelsaver.dfy ===
/**
 * `saveSessionToExcel` of lib/excel-saver.ts: read the rows of the workbook, collect every
 * quiz key (from the "Quiz Q<key>" columns already present and from the new answers),
 * extend the column list, build the new row, pad every row to the columns, and write all
 * rows back. The workbook is the rows `sheet_to_json` returns; an absent file has none.
 */
module ExcelSaver {
  import opened Wrappers
  import opened Json
  import JsText
  import opened Sheet

  /**
   * The session's `quizAnswers`: left `undefined`, `null`, or an object. The merge treats
   * the first two alike (`|| {}` tolerates both, a property read throws on both);
   * `JSON.stringify` does not, dropping `undefined` but writing `null`.
   */
  datatype Answers = Undefined | Null | Object(fields: map<string, Value>)

  /** The session handed to the saver. `name` is optional. */
  datatype SessionData = SessionData(
    sessionId: string,
    email: string,
    name: Option<string>,
    quizAnswers: Answers,
    privacyConsent: bool,
    marketingConsent: bool,
    createdAt: string,
    submittedAt: string)
  {
    /** The answers as the merge reads them: their fields when they are an object. */
    function AnswerFields(): Option<map<string, Value>> {
      if quizAnswers.Object? then Some(quizAnswers.fields) else None
    }
  }

  const BaseColumns: seq<string> :=
    ["Session ID", "Email", "Name", "Privacy Consent", "Marketing Consent", "Created At", "Submitted At"]

  function YesNo(b: bool): string {
    if b then "Yes" else "No"
  }

  /** The base cells of the new row, in the order they are assigned. */
  function BaseCells(data: SessionData): (cells: Row)
    ensures Columns(cells) == BaseColumns
  {
    [ Cell("Session ID", JStr(data.sessionId)),
      Cell("Email", JStr(data.email)),
      Cell("Name", JStr(if data.name.Some? then data.name.value else "")),
      Cell("Privacy Consent", JStr(YesNo(data.privacyConsent))),
      Cell("Marketing Consent", JStr(YesNo(data.marketingConsent))),
      Cell("Created At", JStr(data.createdAt)),
      Cell("Submitted At", JStr(data.submittedAt)) ]
  }

  /** `quizAnswers[key]`; only read where `quizAnswers` is an object. */
  function AnswerOf(answers: Option<map<string, Value>>, key: string): Option<Value> {
    if answers.Some? then JsGet(answers.value, key) else None
  }

  /** No base column is a quiz column: they all start with a letter other than 'Q'. */
  lemma BaseIsNotQuiz(key: string)
    ensures QuizColumn(key) !in BaseColumns
  {
    assert QuizColumn(key)[0] == 'Q';
  }

  /** The quiz key a column names: the rest of a "Quiz Q<key>" column, when that is not empty. */
  function KeyOfColumn(c: string): (k: Option<string>)
    ensures k.Some? <==> JsText.StartsWith(c, QuizPrefix) && |c| > |QuizPrefix|
    ensures k.Some? ==> k.value != "" && c == QuizColumn(k.value)
  {
    if JsText.StartsWith(c, QuizPrefix) && |c| > |QuizPrefix| then Some(c[|QuizPrefix|..]) else None
  }

  function KeySet(k: Option<string>): set<string> {
    if k.Some? then {k.value} else {}
  }

  /** The quiz keys the columns of `row` name, cell by cell. */
  function RowKeys(row: Row): set<string> {
    if row == [] then {} else RowKeys(row[..|row| - 1]) + KeySet(KeyOfColumn(row[|row| - 1].column))
  }

  /** The quiz keys the columns of `rows` name, row by row. */
  function ColumnKeys(rows: seq<Row>): set<string> {
    if rows == [] then {} else ColumnKeys(rows[..|rows| - 1]) + RowKeys(rows[|rows| - 1])
  }

  /** The quiz keys of a save: those named by existing columns, and the keys of the new answers. */
  function QuizKeys(existing: seq<Row>, answers: Option<map<string, Value>>): set<string> {
    ColumnKeys(existing) + if answers.Some? then answers.value.Keys else {}
  }

  /** A row names key `k` exactly when one of its cells is the "Quiz Q<k>" column, for non-empty `k`. */
  lemma {:induction false} RowKeysNamed(row: Row, k: string)
    ensures k in RowKeys(row) <==> k != "" && exists j :: 0 <= j < |row| && row[j].column == QuizColumn(k)
  {
    if row != [] {
      var init := row[..|row| - 1];
      RowKeysNamed(init, k);
      var c := row[|row| - 1].column;
      if k != "" && c == QuizColumn(k) {
        assert c[|QuizPrefix|..] == k;
      }
      if k in RowKeys(row) && k !in RowKeys(init) {
        assert row[|row| - 1].column == QuizColumn(k);
      }
      if k != "" && (exists j :: 0 <= j < |row| && row[j].column == QuizColumn(k)) {
        var j :| 0 <= j < |row| && row[j].column == QuizColumn(k);
        if j < |row| - 1 {
          assert init[j] == row[j];
        }
      }
    }
  }

  /**
   * The rows name key `k` exactly when some cell of some row is the "Quiz Q<k>" column, for
   * non-empty `k`: the order of the scan does not matter.
   */
  lemma {:induction false} ColumnKeysNamed(rows: seq<Row>, k: string)
    ensures k in ColumnKeys(rows) <==>
      k != "" && exists i, j :: 0 <= i < |rows| && 0 <= j < |rows[i]| && rows[i][j].column == QuizColumn(k)
  {
    if rows != [] {
      var init := rows[..|rows| - 1];
      var last := rows[|rows| - 1];
      ColumnKeysNamed(init, k);
      RowKeysNamed(last, k);
      if k in RowKeys(last) {
        var j :| 0 <= j < |last| && last[j].column == QuizColumn(k);
        assert rows[|rows| - 1][j].column == QuizColumn(k);
      }
      if k in ColumnKeys(init) {
        var i, j :| 0 <= i < |init| && 0 <= j < |init[i]| && init[i][j].column == QuizColumn(k);
        assert rows[i][j].column == QuizColumn(k);
      }
      if k != "" && exists i, j :: 0 <= i < |rows| && 0 <= j < |rows[i]| && rows[i][j].column == QuizColumn(k) {
        var i, j :| 0 <= i < |rows| && 0 <= j < |rows[i]| && rows[i][j].column == QuizColumn(k);
        if i < |rows| - 1 {
          assert init[i][j].column == QuizColumn(k);
        } else {
          assert last[j].column == QuizColumn(k);
        }
      }
    }
  }

  /** Column `c` is the quiz column of a quiz key of the save. */
  ghost predicate NamesQuizKey(keys: set<string>, c: string) {
    exists k :: c == QuizColumn(k) && k in keys
  }

  /** Each quiz column of a list of quiz keys names one of them. */
  lemma QuizColumnsNameKeys(keys: seq<string>, all: set<string>)
    requires forall k :: k in keys ==> k in all
    ensures forall c :: c in QuizColumns(keys) ==> NamesQuizKey(all, c)
  {
    forall c | c in QuizColumns(keys) ensures NamesQuizKey(all, c) {
      var m :| 0 <= m < |keys| && QuizColumns(keys)[m] == c;
      assert c == QuizColumn(keys[m]);
    }
  }

  /** Reading the cells of row `i` up to `j` adds the keys they name. */
  lemma ScanStep(existing: seq<Row>, i: nat, j: nat)
    requires i < |existing| && j < |existing[i]|
    ensures RowKeys(existing[i][..j + 1]) == RowKeys(existing[i][..j]) + KeySet(KeyOfColumn(existing[i][j].column))
  {
    assert existing[i][..j + 1][..j] == existing[i][..j];
  }

  /**
   * `getAllQuizKeys`: every quiz key of the save, each once, in ascending order. A column
   * named exactly "Quiz Q" gives no key.
   */
  method GetAllQuizKeys(existing: seq<Row>, answers: Option<map<string, Value>>) returns (keys: seq<string>)
    ensures StrictlySorted(keys)
    ensures forall k :: k in keys <==> k in QuizKeys(existing, answers)
  {
    var found: set<string> := {};
    var i := 0;
    while i < |existing|
      invariant 0 <= i <= |existing|
      invariant found == ColumnKeys(existing[..i])
    {
      var row := existing[i];
      var j := 0;
      while j < |row|
        invariant 0 <= j <= |row|
        invariant found == ColumnKeys(existing[..i]) + RowKeys(row[..j])
      {
        var col := row[j].column;
        ScanStep(existing, i, j);
        if JsText.StartsWith(col, QuizPrefix) {
          JsText.ReplacePrefixDropsIt(col, QuizPrefix);
          var key := JsText.ReplaceFirst(col, QuizPrefix, "");
          if key != "" {
            found := found + {key};
          }
        }
        j := j + 1;
      }
      assert row[..j] == row;
      assert existing[..i + 1][..i] == existing[..i];
      i := i + 1;
    }
    assert existing[..i] == existing;
    var fromAnswers: set<string> := if answers.Some? then answers.value.Keys else {};
    found := found + fromAnswers;
    keys := SortKeys(found);
  }

  /** The columns the merge starts from: the first existing row's, or the base columns. */
  function StartColumns(existing: seq<Row>): (cs: seq<string>)
    ensures cs != []
  {
    if existing == [] || existing[0] == [] then BaseColumns else Columns(existing[0])
  }

  /** The columns of `cs` that `start` lacks, in the order of `cs`. */
  function Missing(start: seq<string>, cs: seq<string>): (m: seq<string>)
    ensures forall c :: c in m ==> c in cs && c !in start
  {
    if cs == [] then []
    else Missing(start, cs[..|cs| - 1]) + (if cs[|cs| - 1] in start then [] else [cs[|cs| - 1]])
  }

  /**
   * The column list: with no starting columns, the base columns then every quiz column;
   * otherwise the starting columns, then each quiz column they lack, in key order.
   */
  method MergeColumns(start: seq<string>, keys: seq<string>) returns (columns: seq<string>)
    requires Distinct(start) && Distinct(keys)
    ensures start == [] ==> columns == BaseColumns + QuizColumns(keys)
    ensures start != [] ==> columns == start + Missing(start, QuizColumns(keys))
    ensures Distinct(columns)
    ensures forall k :: k in keys ==> QuizColumn(k) in columns
    ensures forall c :: c in columns ==> c in (if start == [] then BaseColumns else start) || c in QuizColumns(keys)
  {
    QuizColumnsDistinct(keys);
    if start == [] {
      columns := BaseColumns + QuizColumns(keys);
      forall k | k in keys { BaseIsNotQuiz(k); }
      assert forall c :: c in QuizColumns(keys) ==> c !in BaseColumns;
      return;
    }
    columns := start;
    var n := 0;
    while n < |keys|
      invariant 0 <= n <= |keys|
      invariant columns == start + Missing(start, QuizColumns(keys)[..n])
      invariant Distinct(columns)
      invariant forall k :: k in keys[..n] ==> QuizColumn(k) in columns
      invariant forall c :: c in columns ==> c in start || c in QuizColumns(keys)
    {
      var col := QuizColumn(keys[n]);
      assert QuizColumns(keys)[..n + 1][..n] == QuizColumns(keys)[..n];
      assert col !in QuizColumns(keys)[..n];
      if col !in columns {
        columns := columns + [col];
      }
      assert keys[..n + 1] == keys[..n] + [keys[n]];
      n := n + 1;
    }
    assert QuizColumns(keys)[..n] == QuizColumns(keys);
  }

  /** The cell holding the answer text for quiz key `k`. */
  function QuizCell(answers: Option<map<string, Value>>, k: string): (c: Cell)
    ensures c.column == QuizColumn(k)
  {
    Cell(QuizColumn(k), JStr(AnswerText(AnswerOf(answers, k))))
  }

  /** The key a quiz column names: the text after "Quiz Q". */
  function ColumnKey(c: string): string {
    if |c| >= |QuizPrefix| then c[|QuizPrefix|..] else c
  }

  /** The keys named by the columns after the base columns. */
  function HeaderKeys(cols: seq<string>): (ks: seq<string>)
    ensures |cols| >= |BaseColumns| ==> |ks| == |cols| - |BaseColumns|
  {
    if |cols| < |BaseColumns| then []
    else seq(|cols| - |BaseColumns|, i requires 0 <= i < |cols| - |BaseColumns| => ColumnKey(cols[|BaseColumns| + i]))
  }

  /**
   * The header `json_to_sheet` gives a new workbook, taken from the new row's key order:
   * the base columns, then the quiz column of every key of the answers in key order.
   */
  ghost predicate FreshHeader(answers: Option<map<string, Value>>, cols: seq<string>) {
    var ks := HeaderKeys(cols);
    cols == BaseColumns + QuizColumns(ks)
    && StrictlySorted(ks)
    && forall k :: k in ks <==> k in QuizKeys([], answers)
  }

  /** The base columns followed by the sorted keys' columns form the fresh header. */
  lemma FreshHeaderOf(answers: Option<map<string, Value>>, keys: seq<string>)
    requires StrictlySorted(keys) && forall k :: k in keys <==> k in QuizKeys([], answers)
    ensures FreshHeader(answers, BaseColumns + QuizColumns(keys))
  {
    var cols := BaseColumns + QuizColumns(keys);
    var ks := HeaderKeys(cols);
    forall i | 0 <= i < |keys| ensures ks[i] == keys[i] {
      assert cols[|BaseColumns| + i] == QuizColumn(keys[i]);
      assert QuizColumn(keys[i])[|QuizPrefix|..] == keys[i];
      assert ks[i] == ColumnKey(cols[|BaseColumns| + i]);
    }
    assert ks == keys;
  }

  /** A fresh header is determined by the answers: its column order is fixed. */
  lemma FreshHeaderUnique(answers: Option<map<string, Value>>, c1: seq<string>, c2: seq<string>)
    requires FreshHeader(answers, c1) && FreshHeader(answers, c2)
    ensures c1 == c2
  {
    SortedUnique(HeaderKeys(c1), HeaderKeys(c2));
  }

  /** The base and quiz cells of a new row, before padding. */
  ghost predicate QuizRowOf(data: SessionData, keys: seq<string>, row: Row) {
    |row| == |BaseColumns| + |keys|
    && BaseCells(data) <= row
    && forall m :: 0 <= m < |keys| ==> row[|BaseColumns| + m] == QuizCell(data.AnswerFields(), keys[m])
  }

  /** Appending the cell of the next key extends a row of quiz cells. */
  lemma QuizRowStep(data: SessionData, keys: seq<string>, n: nat, row: Row)
    requires n < |keys| && QuizRowOf(data, keys[..n], row)
    ensures QuizRowOf(data, keys[..n + 1], row + [QuizCell(data.AnswerFields(), keys[n])])
  {
    var row' := row + [QuizCell(data.AnswerFields(), keys[n])];
    var ks := keys[..n + 1];
    forall m | 0 <= m < n + 1
      ensures row'[|BaseColumns| + m] == QuizCell(data.AnswerFields(), ks[m])
    {
      if m < n {
        assert ks[m] == keys[..n][m];
      }
    }
  }

  /** The columns of a new row, before padding: the base columns, then the quiz columns in key order. */
  lemma QuizRowColumns(data: SessionData, keys: seq<string>, row: Row)
    requires QuizRowOf(data, keys, row)
    ensures Columns(row) == BaseColumns + QuizColumns(keys)
  {
    var base := BaseCells(data);
    forall i | 0 <= i < |row| ensures Columns(row)[i] == (BaseColumns + QuizColumns(keys))[i] {
      if i < |BaseColumns| {
        assert row[i] == base[i];
        assert Columns(base)[i] == base[i].column;
      } else {
        assert row[i] == QuizCell(data.AnswerFields(), keys[i - |BaseColumns|]);
      }
    }
  }

  /** The base and quiz columns of a new row are distinct when the keys are. */
  lemma QuizRowDistinct(data: SessionData, keys: seq<string>, row: Row)
    requires Distinct(keys) && QuizRowOf(data, keys, row)
    ensures Distinct(Columns(row))
  {
    QuizRowColumns(data, keys, row);
    QuizColumnsDistinct(keys);
    forall k | k in keys { BaseIsNotQuiz(k); }
    assert forall c :: c in QuizColumns(keys) ==> c !in BaseColumns;
  }

  /** After padding, each quiz column of the new row still reads the answer text. */
  lemma PaddedQuizCells(data: SessionData, keys: seq<string>, row: Row, padded: Row)
    requires QuizRowOf(data, keys, row)
    requires row <= padded && Distinct(Columns(padded))
    ensures forall k :: k in keys ==> Lookup(padded, QuizColumn(k)) == Some(QuizCell(data.AnswerFields(), k).value)
  {
    forall k | k in keys
      ensures Lookup(padded, QuizColumn(k)) == Some(QuizCell(data.AnswerFields(), k).value)
    {
      var m :| 0 <= m < |keys| && keys[m] == k;
      PrefixCellRead(row, padded, |BaseColumns| + m);
    }
  }

  /** A cell of `row` is what a read of its column returns in any distinct extension of `row`. */
  lemma PrefixCellRead(row: Row, padded: Row, i: nat)
    requires i < |row| && row <= padded && Distinct(Columns(padded))
    ensures Lookup(padded, row[i].column) == Some(row[i].value)
  {
    assert padded[i] == row[i];
    LookupCell(padded, i);
  }

  /** After padding, every cell past the base cells that is not a quiz cell is an empty padding cell. */
  lemma PaddedOtherCells(data: SessionData, keys: seq<string>, columns: seq<string>, row: Row, padded: Row)
    requires QuizRowOf(data, keys, row)
    requires row <= padded
    requires forall c :: Has(padded, c) ==> Has(row, c) || c in columns
    requires forall i :: |row| <= i < |padded| ==> padded[i].value == EmptyCell && !Has(row, padded[i].column)
    ensures forall j :: |BaseColumns| <= j < |padded| && padded[j].column !in QuizColumns(keys) ==>
      padded[j].value == EmptyCell && padded[j].column in columns
  {
    QuizRowColumns(data, keys, row);
    forall j | |BaseColumns| <= j < |padded| && padded[j].column !in QuizColumns(keys)
      ensures padded[j].value == EmptyCell && padded[j].column in columns
    {
      if j < |row| {
        assert false;
      }
      assert Columns(padded)[j] == padded[j].column;
    }
  }

  /**
   * The new row: the base cells, then one cell per quiz key in key order, then an empty
   * cell for every column still missing. Reading an answer throws when `quizAnswers` is
   * not an object and there is a key to read.
   */
  method BuildNewRow(data: SessionData, keys: seq<string>, columns: seq<string>) returns (r: Result<Row, string>)
    requires Distinct(keys)
    ensures r.Failure? <==> data.AnswerFields().None? && keys != []
    ensures r.Success? ==> BaseCells(data) <= r.value && Distinct(Columns(r.value))
    ensures r.Success? ==> forall c :: c in columns ==> Has(r.value, c)
    ensures r.Success? ==> forall k :: k in keys ==>
      Lookup(r.value, QuizColumn(k)) == Some(QuizCell(data.AnswerFields(), k).value)
    ensures r.Success? ==> forall j :: |BaseColumns| <= j < |r.value| && r.value[j].column !in QuizColumns(keys) ==>
      r.value[j].value == EmptyCell && r.value[j].column in columns
    ensures r.Success? && columns == BaseColumns + QuizColumns(keys) ==> Columns(r.value) == columns
  {
    if data.AnswerFields().None? && keys != [] {
      var missing := if data.quizAnswers.Null? then "null" else "undefined";
      return Failure("TypeError: Cannot read properties of " + missing + " (reading '" + keys[0] + "')");
    }
    var row := BaseCells(data);
    var n := 0;
    while n < |keys|
      invariant 0 <= n <= |keys|
      invariant QuizRowOf(data, keys[..n], row)
    {
      QuizRowStep(data, keys, n, row);
      row := row + [QuizCell(data.AnswerFields(), keys[n])];
      n := n + 1;
    }
    assert keys[..n] == keys;
    QuizRowDistinct(data, keys, row);
    var padded := PadRow(row, columns);
    PaddedQuizCells(data, keys, row, padded);
    PaddedOtherCells(data, keys, columns, row, padded);
    if columns == BaseColumns + QuizColumns(keys) {
      QuizRowColumns(data, keys, row);
      PadAddsNothing(row, columns, padded);
    }
    r := Success(padded);
  }

  lemma CellIsListed(r: Row, i: nat)
    ensures i < |r| ==> Has(r, r[i].column)
  {
    if i < |r| {
      assert Columns(r)[i] == r[i].column;
    }
  }

  /** Padding a row that already has every listed column adds nothing. */
  lemma PadAddsNothing(row: Row, columns: seq<string>, padded: Row)
    requires Columns(row) == columns
    requires row <= padded
    requires forall c :: Has(padded, c) ==> Has(row, c) || c in columns
    requires forall i :: |row| <= i < |padded| ==> !Has(row, padded[i].column)
    ensures padded == row
  {
    if |row| < |padded| {
      CellIsListed(padded, |row|);
      assert false;
    }
  }

  /** Row `row` is `orig` padded for the save: the old cells first, then empty cells for merged columns. */
  ghost predicate PaddedFrom(existing: seq<Row>, answers: Option<map<string, Value>>, orig: Row, row: Row) {
    orig <= row && Distinct(Columns(row))
    && (forall c :: c in StartColumns(existing) ==> Has(row, c))
    && (forall k :: k in QuizKeys(existing, answers) ==> Has(row, QuizColumn(k)))
    && forall j :: |orig| <= j < |row| ==>
      row[j].value == EmptyCell && (row[j].column in StartColumns(existing) || NamesQuizKey(QuizKeys(existing, answers), row[j].column))
  }

  /** Row `row` is the new row of the save of `data`. */
  ghost predicate NewRowOf(existing: seq<Row>, data: SessionData, row: Row) {
    BaseCells(data) <= row && Distinct(Columns(row))
    && (forall c :: c in StartColumns(existing) ==> Has(row, c))
    && ReadsAnswers(existing, data, row)
    && OnlyPaddingElse(existing, data, row)
    && (existing == [] ==> FreshHeader(data.AnswerFields(), Columns(row)))
  }

  /** Each quiz column of the new row holds the text of that key's answer. */
  ghost predicate ReadsAnswers(existing: seq<Row>, data: SessionData, row: Row) {
    forall k :: k in QuizKeys(existing, data.AnswerFields()) ==>
      Lookup(row, QuizColumn(k)) == Some(JStr(AnswerText(AnswerOf(data.AnswerFields(), k))))
  }

  /** Past the base cells, every cell of the new row that is not a quiz cell is padding for a starting column. */
  ghost predicate OnlyPaddingElse(existing: seq<Row>, data: SessionData, row: Row) {
    forall j :: |BaseColumns| <= j < |row| && !NamesQuizKey(QuizKeys(existing, data.AnswerFields()), row[j].column) ==>
      row[j].value == EmptyCell && row[j].column in StartColumns(existing)
  }

  /** `rows` is what the save of `data` writes over `existing`. */
  ghost predicate IsMerge(existing: seq<Row>, data: SessionData, rows: seq<Row>) {
    |rows| == |existing| + 1
    && (forall i :: 0 <= i < |existing| ==> PaddedFrom(existing, data.AnswerFields(), existing[i], rows[i]))
    && NewRowOf(existing, data, rows[|existing|])
  }

  /** The merge fails exactly when answers must be read from a missing `quizAnswers`. */
  ghost predicate MergeFails(existing: seq<Row>, data: SessionData) {
    data.AnswerFields().None? && ColumnKeys(existing) != {}
  }

  /**
   * The merged column list of a save: it holds the starting columns and the quiz column
   * of every quiz key, and nothing else.
   */
  ghost predicate MergedColumns(existing: seq<Row>, answers: Option<map<string, Value>>, columns: seq<string>) {
    (forall c :: c in StartColumns(existing) ==> c in columns)
    && (forall k :: k in QuizKeys(existing, answers) ==> QuizColumn(k) in columns)
    && (forall c :: c in columns ==> c in StartColumns(existing) || NamesQuizKey(QuizKeys(existing, answers), c))
  }

  lemma MergeColumnsIsMerged(existing: seq<Row>, answers: Option<map<string, Value>>, keys: seq<string>, columns: seq<string>)
    requires forall k :: k in keys <==> k in QuizKeys(existing, answers)
    requires var start := if existing == [] then [] else Columns(existing[0]);
      (start == [] ==> columns == BaseColumns + QuizColumns(keys))
      && (start != [] ==> start <= columns)
      && (forall k :: k in keys ==> QuizColumn(k) in columns)
      && (forall c :: c in columns ==> c in (if start == [] then BaseColumns else start) || c in QuizColumns(keys))
    ensures MergedColumns(existing, answers, columns)
  {
    QuizColumnsNameKeys(keys, QuizKeys(existing, answers));
  }

  lemma PadRowIsPaddedFrom(existing: seq<Row>, answers: Option<map<string, Value>>, columns: seq<string>, orig: Row, padded: Row)
    requires MergedColumns(existing, answers, columns)
    requires orig <= padded && Distinct(Columns(padded))
    requires forall c :: c in columns ==> Has(padded, c)
    requires forall c :: Has(padded, c) ==> Has(orig, c) || c in columns
    requires forall j :: |orig| <= j < |padded| ==> padded[j].value == EmptyCell && !Has(orig, padded[j].column)
    ensures PaddedFrom(existing, answers, orig, padded)
  {
    forall j | |orig| <= j < |padded|
      ensures padded[j].column in columns
    {
      assert Columns(padded)[j] == padded[j].column;
    }
  }

  lemma NewRowReadsAnswers(existing: seq<Row>, data: SessionData, keys: seq<string>, row: Row)
    requires forall k :: k in QuizKeys(existing, data.AnswerFields()) ==> k in keys
    requires forall k :: k in keys ==>
      Lookup(row, QuizColumn(k)) == Some(QuizCell(data.AnswerFields(), k).value)
    ensures ReadsAnswers(existing, data, row)
  {
  }

  lemma NewRowOnlyPadding(existing: seq<Row>, data: SessionData, keys: seq<string>, columns: seq<string>, row: Row)
    requires forall c :: c in QuizColumns(keys) ==> NamesQuizKey(QuizKeys(existing, data.AnswerFields()), c)
    requires forall c :: c in columns ==> c in StartColumns(existing) || NamesQuizKey(QuizKeys(existing, data.AnswerFields()), c)
    requires forall j :: |BaseColumns| <= j < |row| && row[j].column !in QuizColumns(keys) ==>
      row[j].value == EmptyCell && row[j].column in columns
    ensures OnlyPaddingElse(existing, data, row)
  {
  }

  /** The column list of the save, from the sorted quiz keys. */
  method MergedColumnList(existing: seq<Row>, answers: Option<map<string, Value>>, keys: seq<string>)
    returns (columns: seq<string>)
    requires existing != [] ==> Distinct(Columns(existing[0]))
    requires StrictlySorted(keys) && forall k :: k in keys <==> k in QuizKeys(existing, answers)
    ensures MergedColumns(existing, answers, columns)
    ensures existing == [] ==> columns == BaseColumns + QuizColumns(keys)
  {
    var start: seq<string> := if existing == [] then [] else Columns(existing[0]);
    SortedIsDistinct(keys);
    columns := MergeColumns(start, keys);
    MergeColumnsIsMerged(existing, answers, keys, columns);
  }

  /** The new row of the save, built over the merged columns. */
  method NewRow(existing: seq<Row>, data: SessionData, keys: seq<string>, columns: seq<string>)
    returns (r: Result<Row, string>)
    requires StrictlySorted(keys) && forall k :: k in keys <==> k in QuizKeys(existing, data.AnswerFields())
    requires MergedColumns(existing, data.AnswerFields(), columns)
    requires existing == [] ==> columns == BaseColumns + QuizColumns(keys)
    ensures r.Failure? <==> data.AnswerFields().None? && keys != []
    ensures r.Success? ==> NewRowOf(existing, data, r.value)
  {
    SortedIsDistinct(keys);
    r := BuildNewRow(data, keys, columns);
    if r.Success? {
      if existing == [] {
        FreshHeaderOf(data.AnswerFields(), keys);
      }
      NewRowReadsAnswers(existing, data, keys, r.value);
      QuizColumnsNameKeys(keys, QuizKeys(existing, data.AnswerFields()));
      NewRowOnlyPadding(existing, data, keys, columns, r.value);
    }
  }

  /** Every existing row padded to the merged columns. */
  method PadRows(existing: seq<Row>, answers: Option<map<string, Value>>, columns: seq<string>)
    returns (rows: seq<Row>)
    requires forall i :: 0 <= i < |existing| ==> Distinct(Columns(existing[i]))
    requires MergedColumns(existing, answers, columns)
    ensures |rows| == |existing|
    ensures forall i :: 0 <= i < |existing| ==> PaddedFrom(existing, answers, existing[i], rows[i])
  {
    rows := [];
    var i := 0;
    while i < |existing|
      invariant 0 <= i <= |existing| && |rows| == i
      invariant forall m :: 0 <= m < i ==> PaddedFrom(existing, answers, existing[m], rows[m])
    {
      var padded := PadRow(existing[i], columns);
      PadRowIsPaddedFrom(existing, answers, columns, existing[i], padded);
      rows := rows + [padded];
      i := i + 1;
    }
  }

  /** The rows `saveSessionToExcel` writes: the padded existing rows, then the new row. */
  method MergeRows(existing: seq<Row>, data: SessionData) returns (r: Result<seq<Row>, string>)
    requires forall i :: 0 <= i < |existing| ==> Distinct(Columns(existing[i]))
    ensures r.Failure? <==> MergeFails(existing, data)
    ensures r.Success? ==> IsMerge(existing, data, r.value)
  {
    var keys := GetAllQuizKeys(existing, data.AnswerFields());
    var columns := MergedColumnList(existing, data.AnswerFields(), keys);
    var newRow := NewRow(existing, data, keys, columns);
    if newRow.Failure? {
      assert keys[0] in QuizKeys(existing, None);
      return Failure(newRow.error);
    }
    var rows := PadRows(existing, data.AnswerFields(), columns);
    r := Success(rows + [newRow.value]);
  }

  /**
   * `saveSessionToExcel`, in the source's order: reading the file (`readFault`), then the
   * merge, then writing the file back (`writeFault`, a failure before the file is
   * opened). The first failure is passed on and leaves the workbook untouched; on
   * success the workbook holds the merged rows.
   */
  method SaveSessionToExcel(file: ExcelFile, data: SessionData, readFault: Option<string>,
                            writeFault: Option<string>) returns (err: Option<string>)
    requires forall i :: 0 <= i < |file.rows| ==> Distinct(Columns(file.rows[i]))
    modifies file
    ensures err.None? <==> readFault.None? && !MergeFails(old(file.rows), data) && writeFault.None?
    ensures readFault.Some? ==> err == readFault
    ensures readFault.None? && !MergeFails(old(file.rows), data) ==> err == writeFault
    ensures err.None? ==> IsMerge(old(file.rows), data, file.rows)
    ensures err.Some? ==> file.rows == old(file.rows)
  {
    if readFault.Some? {
      return readFault;
    }
    var merged := MergeRows(file.rows, data);
    if merged.Failure? {
      return Some(merged.error);
    }
    if writeFault.Some? {
      return writeFault;
    }
    file.rows := merged.value;
    err := None;
  }
}

=== FILE: json.dfy ===
/**
 * JSON values as a request body, `JSON.parse` or a spreadsheet reader produces them,
 * with the two truth rules the funnel relies on (Python's for the Flask backend,
 * JavaScript's for the Next.js code) and JavaScript's `String(v)`.
 * Numbers are integers: fractional numbers are not part of this model.
 */
module Json {
  import opened Wrappers
  import JsText

  datatype Value =
    | JNull
    | JBool(b: bool)
    | JNum(n: int)
    | JStr(s: string)
    | JArr(items: seq<Value>)
    | JObj(fields: map<string, Value>)

  /** Python `bool(v)`: None, False, 0, "", [] and {} are false. */
  predicate PyTruthy(v: Value) {
    match v
    case JNull => false
    case JBool(b) => b
    case JNum(n) => n != 0
    case JStr(s) => s != ""
    case JArr(xs) => xs != []
    case JObj(m) => m != map[]
  }

  /** JavaScript `!!v`, with `None` for `undefined`: arrays and objects are always true. */
  predicate JsTruthy(v: Option<Value>) {
    v.Some? &&
    match v.value
    case JNull => false
    case JBool(b) => b
    case JNum(n) => n != 0
    case JStr(s) => s != ""
    case JArr(_) => true
    case JObj(_) => true
  }

  /** Python `d.get(key, default)`. */
  function PyGet(d: map<string, Value>, key: string, default: Value): Value {
    if key in d then d[key] else default
  }

  /** JavaScript property read `o[key]` on a parsed object; `None` is `undefined`. */
  function JsGet(d: map<string, Value>, key: string): Option<Value> {
    if key in d then Some(d[key]) else None
  }

  /** The name Python gives the type of a parsed JSON value. */
  function PyTypeName(v: Value): string {
    match v
    case JNull => "NoneType"
    case JBool(_) => "bool"
    case JNum(_) => "int"
    case JStr(_) => "str"
    case JArr(_) => "list"
    case JObj(_) => "dict"
  }

  /** JavaScript `String(v)`; an array is joined with "," and its null elements become "". */
  function ToJsString(v: Value): string
    decreases v
  {
    match v
    case JNull => "null"
    case JBool(b) => if b then "true" else "false"
    case JNum(n) => JsText.IntToString(n)
    case JStr(s) => s
    case JArr(xs) =>
      JsText.Join(seq(|xs|, i requires 0 <= i < |xs| => if xs[i].JNull? then "" else ToJsString(xs[i])), ",")
    case JObj(_) => "[object Object]"
  }

  /** JavaScript `xs.join(sep)` on a parsed array. */
  function ArrayJoin(xs: seq<Value>, sep: string): string {
    JsText.Join(seq(|xs|, i requires 0 <= i < |xs| => if xs[i].JNull? then "" else ToJsString(xs[i])), sep)
  }
}

=== FILE: jstext.dfy ===
/**
 * The string operations of the JavaScript runtime that the funnel's code calls:
 * `trim`, `padStart`, `String(n)`, `parseInt`, `substring`, `startsWith`,
 * `replace` with a string pattern, and `Array.prototype.join`.
 */
module JsText {
  import opened Wrappers

  /** ECMAScript WhiteSpace and LineTerminator code points: what `trim` and `parseInt` skip. */
  const JsSpaces: set<int> := {
    0x09, 0x0A, 0x0B, 0x0C, 0x0D, 0x20, 0xA0, 0x1680,
    0x2000, 0x2001, 0x2002, 0x2003, 0x2004, 0x2005, 0x2006, 0x2007, 0x2008, 0x2009, 0x200A,
    0x2028, 0x2029, 0x202F, 0x205F, 0x3000, 0xFEFF
  }

  predicate IsJsSpace(c: char) {
    c as int in JsSpaces
  }

  /** `s.trimStart()`: drop leading white space. */
  function TrimStart(s: string): (r: string)
    ensures |r| <= |s| && r == s[|s| - |r|..]
    ensures forall k :: 0 <= k < |s| - |r| ==> IsJsSpace(s[k])
    ensures r == [] || !IsJsSpace(r[0])
  {
    if s != [] && IsJsSpace(s[0]) then TrimStart(s[1..]) else s
  }

  /** `s.trimEnd()`: drop trailing white space. */
  function TrimEnd(s: string): (r: string)
    ensures |r| <= |s| && r == s[..|r|]
    ensures forall k :: |r| <= k < |s| ==> IsJsSpace(s[k])
    ensures r == [] || !IsJsSpace(r[|r| - 1])
  {
    if s != [] && IsJsSpace(s[|s| - 1]) then TrimEnd(s[..|s| - 1]) else s
  }

  /** `r` is `s` with white space, and only white space, cut from both ends at offset `i`. */
  predicate TrimmedAt(s: string, r: string, i: int) {
    0 <= i <= |s| - |r| && r == s[i..i + |r|]
    && (forall k :: 0 <= k < i ==> IsJsSpace(s[k]))
    && (forall k :: i + |r| <= k < |s| ==> IsJsSpace(s[k]))
  }

  /**
   * `s.trim()`: the result is a contiguous piece of `s`, everything cut away is white
   * space, and the result neither starts nor ends with white space.
   */
  function Trim(s: string): (r: string)
    ensures exists i :: TrimmedAt(s, r, i)
    ensures r == [] || (!IsJsSpace(r[0]) && !IsJsSpace(r[|r| - 1]))
    ensures r == [] <==> forall k :: 0 <= k < |s| ==> IsJsSpace(s[k])
  {
    TrimFacts(s);
    TrimEnd(TrimStart(s))
  }

  lemma TrimFacts(s: string)
    ensures TrimmedAt(s, TrimEnd(TrimStart(s)), |s| - |TrimStart(s)|)
  {
    CutBothEnds(s, TrimStart(s), TrimEnd(TrimStart(s)));
  }

  /** Cutting white space from the front and then from the back cuts it from both ends. */
  lemma CutBothEnds(s: string, t: string, r: string)
    requires |t| <= |s| && t == s[|s| - |t|..] && forall k :: 0 <= k < |s| - |t| ==> IsJsSpace(s[k])
    requires |r| <= |t| && r == t[..|r|] && forall k :: |r| <= k < |t| ==> IsJsSpace(t[k])
    ensures TrimmedAt(s, r, |s| - |t|)
  {
    var i := |s| - |t|;
    assert r == s[i..i + |r|];
    forall k | i + |r| <= k < |s| ensures IsJsSpace(s[k]) {
      assert s[k] == t[k - i];
    }
  }

  /** `s.padStart(width, c)` with a one-character pad string. */
  function PadStart(s: string, width: nat, c: char): (r: string)
    ensures |r| == if |s| >= width then |s| else width
    ensures r[|r| - |s|..] == s
    ensures forall k :: 0 <= k < |r| - |s| ==> r[k] == c
  {
    if |s| >= width then s else seq(width - |s|, _ => c) + s
  }

  /** `Array.prototype.join(sep)` over strings. */
  function Join(parts: seq<string>, sep: string): (r: string)
    ensures parts == [] ==> r == []
    ensures |parts| == 1 ==> r == parts[0]
  {
    if parts == [] then []
    else if |parts| == 1 then parts[0]
    else Join(parts[..|parts| - 1], sep) + sep + parts[|parts| - 1]
  }

  /** `s.startsWith(p)`. */
  predicate StartsWith(s: string, p: string) {
    |p| <= |s| && s[..|p|] == p
  }

  /** `pat` occurs in `s` starting at index `k`. */
  predicate OccursAt(s: string, pat: string, k: nat) {
    k + |pat| <= |s| && s[k..k + |pat|] == pat
  }

  /** The first index at or after `from` where `pat` occurs in `s`: `s.indexOf(pat, from)`. */
  function IndexFrom(s: string, pat: string, from: nat): (r: Option<nat>)
    requires from <= |s|
    ensures r.Some? ==> from <= r.value && OccursAt(s, pat, r.value)
    ensures r.Some? ==> forall k :: from <= k < r.value ==> !OccursAt(s, pat, k)
    ensures r.None? ==> forall k :: from <= k ==> !OccursAt(s, pat, k)
    decreases |s| - from
  {
    if from + |pat| > |s| then None
    else if s[from..from + |pat|] == pat then Some(from)
    else if from == |s| then None
    else IndexFrom(s, pat, from + 1)
  }

  /** `s.replace(pat, rep)` with a string pattern: only the first occurrence is replaced. */
  function ReplaceFirst(s: string, pat: string, rep: string): string {
    match IndexFrom(s, pat, 0)
    case None => s
    case Some(i) => s[..i] + rep + s[i + |pat|..]
  }

  /** Replacing a prefix that `s` starts with by nothing leaves exactly the rest of `s`. */
  lemma ReplacePrefixDropsIt(s: string, p: string)
    requires StartsWith(s, p)
    ensures ReplaceFirst(s, p, "") == s[|p|..]
  {
    assert OccursAt(s, p, 0);
  }

  /**
   * JavaScript `str.substring(start, end)` for non-negative arguments: both ends are
   * clamped to the length, and swapped when `start > end`.
   */
  function Substring(s: string, start: nat, end: nat): (r: string)
    ensures start <= end ==> |r| <= end - start
    ensures start <= end <= |s| ==> r == s[start..end]
  {
    var a := if start < |s| then start else |s|;
    var b := if end < |s| then end else |s|;
    if a <= b then s[a..b] else s[b..a]
  }

  // ---- decimal numerals ----

  predicate IsDigit(c: char) { '0' <= c <= '9' }

  function DigitChar(d: nat): char
    requires d < 10
  {
    "0123456789"[d]
  }

  function DigitOf(c: char): nat
    requires IsDigit(c)
  {
    c as int - '0' as int
  }

  /** The value of a string of decimal digits, most significant first. */
  function DecimalValue(s: string): nat
    requires forall k :: 0 <= k < |s| ==> IsDigit(s[k])
  {
    if s == [] then 0
    else DecimalValue(s[..|s| - 1]) * 10 + DigitOf(s[|s| - 1])
  }

  /**
   * `String(n)` for a non-negative integer below 10^21: its decimal numeral, with no
   * leading zero, that reads back as `n`.
   */
  function NatToString(n: nat): (r: string)
    ensures 1 <= |r|
    ensures forall k :: 0 <= k < |r| ==> IsDigit(r[k])
    ensures DecimalValue(r) == n
    ensures n < 10 <==> |r| == 1
    ensures |r| > 1 ==> r[0] != '0'
  {
    if n < 10 then [DigitChar(n)]
    else
      var r := NatToString(n / 10) + [DigitChar(n % 10)];
      assert r[..|r| - 1] == NatToString(n / 10);
      r
  }

  /** `String(i)` for an integer of magnitude below 10^21. */
  function IntToString(i: int): (r: string)
    ensures i >= 0 ==> r == NatToString(i)
    ensures i < 0 ==> r == "-" + NatToString(-i)
  {
    if i < 0 then "-" + NatToString(-i) else NatToString(i)
  }

  predicate AllDigits(s: string) {
    forall k :: 0 <= k < |s| ==> IsDigit(s[k])
  }

  /** `String(v).padStart(2, '0')` for `v` in 0..99 is two digits that read back as `v`. */
  lemma PadTwoReadsBack(v: int)
    requires 0 <= v <= 99
    ensures var r := PadStart(IntToString(v), 2, '0');
      |r| == 2 && AllDigits(r) && DecimalValue(r) == v
  {
    var s := NatToString(v);
    var r := PadStart(IntToString(v), 2, '0');
    if v < 10 {
      assert r == ['0'] + s;
      assert r[..1] == ['0'];
    } else {
      assert r == s;
    }
  }

  // ---- parseInt ----

  /** The value of `c` as a digit of the given radix (10 or 16), if it is one. */
  function DigitIn(c: char, radix: nat): Option<nat> {
    if '0' <= c <= '9' && (c as int - '0' as int) < radix then Some(c as int - '0' as int)
    else if radix == 16 && 'a' <= c <= 'f' then Some(c as int - 'a' as int + 10)
    else if radix == 16 && 'A' <= c <= 'F' then Some(c as int - 'A' as int + 10)
    else None
  }

  /** The length of the longest prefix of `s` made of digits of the radix. */
  function DigitRun(s: string, radix: nat): (n: nat)
    ensures n <= |s|
    ensures forall k :: 0 <= k < n ==> DigitIn(s[k], radix).Some?
    ensures n < |s| ==> DigitIn(s[n], radix).None?
  {
    if s == [] || DigitIn(s[0], radix).None? then 0 else 1 + DigitRun(s[1..], radix)
  }

  /** The value of a string of radix digits. */
  function RadixValue(s: string, radix: nat): nat
    requires forall k :: 0 <= k < |s| ==> DigitIn(s[k], radix).Some?
  {
    if s == [] then 0
    else RadixValue(s[..|s| - 1], radix) * radix + DigitIn(s[|s| - 1], radix).value
  }

  /**
   * The digits after an optional sign: hexadecimal after a `0x`/`0X` prefix, decimal
   * otherwise, up to the first character that is not a digit; `None` when there is none.
   */
  function ParseMagnitude(u: string): Option<nat> {
    var hex := |u| >= 2 && u[0] == '0' && (u[1] == 'x' || u[1] == 'X');
    var radix := if hex then 16 else 10;
    var w := if hex then u[2..] else u;
    var n := DigitRun(w, radix);
    if n == 0 then None else Some(RadixValue(w[..n], radix))
  }

  function Signed(m: Option<nat>, negative: bool): Option<int> {
    match m
    case None => None
    case Some(v) => Some(if negative then 0 - v else v)
  }

  /**
   * JavaScript `parseInt(s)` with no radix: skip leading white space, take an optional
   * sign, then the magnitude. `None` stands for `NaN` (no digit at all).
   */
  function ParseInt(s: string): Option<int> {
    var t := TrimStart(s);
    if t != [] && (t[0] == '-' || t[0] == '+') then Signed(ParseMagnitude(t[1..]), t[0] == '-')
    else Signed(ParseMagnitude(t), false)
  }

  lemma {:induction false} RadixTenIsDecimal(s: string)
    requires forall k :: 0 <= k < |s| ==> IsDigit(s[k])
    ensures forall k :: 0 <= k < |s| ==> DigitIn(s[k], 10).Some?
    ensures RadixValue(s, 10) == DecimalValue(s)
  {
    if s != [] {
      RadixTenIsDecimal(s[..|s| - 1]);
    }
  }

  lemma {:induction false} DigitsRunToEnd(s: string)
    requires forall k :: 0 <= k < |s| ==> IsDigit(s[k])
    ensures DigitRun(s, 10) == |s|
  {
    if s != [] {
      DigitsRunToEnd(s[1..]);
    }
  }

  /** A decimal numeral without a leading zero reads back as its value. */
  lemma MagnitudeOfNumeral(s: string)
    requires |s| >= 1 && forall k :: 0 <= k < |s| ==> IsDigit(s[k])
    requires |s| > 1 ==> s[0] != '0'
    ensures ParseMagnitude(s) == Some(DecimalValue(s))
  {
    DigitsRunToEnd(s);
    RadixTenIsDecimal(s);
    assert s[..|s|] == s;
  }

  /** `parseInt(String(n))` gives `n` back: a stored millisecond count reads back unchanged. */
  lemma ParseIntOfNatToString(n: nat)
    ensures ParseInt(NatToString(n)) == Some(n)
  {
    var s := NatToString(n);
    assert IsDigit(s[0]);
    assert !IsJsSpace(s[0]);
    assert TrimStart(s) == s;
    assert s[0] != '-' && s[0] != '+';
    MagnitudeOfNumeral(s);
    assert ParseInt(s) == Signed(ParseMagnitude(s), false);
  }
}

=== FILE: localdb.dfy ===
/**
 * lib/local-db.ts: `saveSessionToLocalDB` appends the session to the JSON array kept in
 * `test_1_database.json`; its `saveSessionToExcel` performs the same workbook merge as
 * lib/excel-saver.ts but swallows every failure.
 */
module LocalDb {
  import opened Wrappers
  import opened Json
  import opened Sheet
  import ExcelSaver

  /**
   * The JSON file as `saveSessionToLocalDB` sees it: missing, blank (its text trims to
   * nothing), holding the value `JSON.parse` returns for it, or text `JSON.parse` rejects.
   */
  datatype DbFile = Absent | Blank | Holds(value: Value) | Corrupt(error: string)

  class JsonFile {
    var state: DbFile

    constructor (state0: DbFile)
      ensures state == state0
    {
      state := state0;
    }
  }

  /** The keys every stored record has. */
  const RecordKeys: set<string> :=
    {"sessionId", "email", "privacyConsent", "marketingConsent", "createdAt", "submittedAt"}

  /**
   * The session as `JSON.stringify` writes it: an undefined `name` or `quizAnswers` is
   * left out, a `null` one is written as `null`.
   */
  function RecordOf(data: ExcelSaver.SessionData): (v: Value)
    ensures v.JObj?
    ensures v.fields.Keys == RecordKeys
      + (if data.name.Some? then {"name"} else {})
      + (if data.quizAnswers.Undefined? then {} else {"quizAnswers"})
    ensures v.fields["sessionId"] == JStr(data.sessionId) && v.fields["email"] == JStr(data.email)
    ensures v.fields["privacyConsent"] == JBool(data.privacyConsent)
    ensures v.fields["marketingConsent"] == JBool(data.marketingConsent)
    ensures v.fields["createdAt"] == JStr(data.createdAt) && v.fields["submittedAt"] == JStr(data.submittedAt)
    ensures data.name.Some? ==> v.fields["name"] == JStr(data.name.value)
    ensures data.quizAnswers.Null? ==> v.fields["quizAnswers"] == JNull
    ensures data.quizAnswers.Object? ==> v.fields["quizAnswers"] == JObj(data.quizAnswers.fields)
  {
    var base := map[
      "sessionId" := JStr(data.sessionId),
      "email" := JStr(data.email),
      "privacyConsent" := JBool(data.privacyConsent),
      "marketingConsent" := JBool(data.marketingConsent),
      "createdAt" := JStr(data.createdAt),
      "submittedAt" := JStr(data.submittedAt)];
    var named := if data.name.Some? then base["name" := JStr(data.name.value)] else base;
    JObj(match data.quizAnswers
      case Undefined => named
      case Null => named["quizAnswers" := JNull]
      case Object(fields) => named["quizAnswers" := JObj(fields)])
  }

  /** The list read from the file before the push; `None` when the push or the parse throws. */
  function ReadList(f: DbFile): (r: Result<seq<Value>, string>)
    ensures r.Success? <==> f.Absent? || f.Blank? || (f.Holds? && f.value.JArr?)
    ensures f.Absent? || f.Blank? ==> r == Success([])
  {
    match f
    case Absent => Success([])
    case Blank => Success([])
    case Corrupt(e) => Failure(e)
    case Holds(v) =>
      if v.JArr? then Success(v.items)
      else if v.JNull? then Failure("TypeError: Cannot read properties of null (reading 'push')")
      else Failure("TypeError: allSessions.push is not a function")
  }

  /** The file after one successful save of `rec`, or the error the save throws. */
  function AfterSave(f: DbFile, rec: Value): (r: Result<DbFile, string>)
    ensures r.Success? <==> ReadList(f).Success?
    ensures r.Success? ==> r.value.Holds? && r.value.value.JArr?
    ensures r.Success? ==> |r.value.value.items| == |ReadList(f).value| + 1
    ensures r.Success? ==> ReadList(f).value <= r.value.value.items
  {
    match ReadList(f)
    case Failure(e) => Failure(e)
    case Success(xs) => Success(Holds(JArr(xs + [rec])))
  }

  /** The file after saving `recs` one after another, stopping at the first error. */
  function AfterSaves(f: DbFile, recs: seq<Value>): Result<DbFile, string>
    decreases |recs|
  {
    if recs == [] then Success(f)
    else match AfterSave(f, recs[0])
      case Failure(e) => Failure(e)
      case Success(g) => AfterSaves(g, recs[1..])
  }

  /**
   * Saving sessions one after another into a well-formed file never fails and leaves the
   * old records followed by the new ones in call order.
   */
  lemma {:induction false} SavesAppendInOrder(xs: seq<Value>, recs: seq<Value>)
    ensures AfterSaves(Holds(JArr(xs)), recs) == Success(Holds(JArr(xs + recs)))
    decreases |recs|
  {
    if recs == [] {
      assert xs + recs == xs;
    } else {
      assert AfterSave(Holds(JArr(xs)), recs[0]) == Success(Holds(JArr(xs + [recs[0]])));
      SavesAppendInOrder(xs + [recs[0]], recs[1..]);
      assert xs + [recs[0]] + recs[1..] == xs + recs;
    }
  }

  /** Starting with no file, or a blank one, the file ends up holding exactly the saved records. */
  lemma SavesFromNothing(f: DbFile, recs: seq<Value>)
    requires f.Absent? || f.Blank?
    requires recs != []
    ensures AfterSaves(f, recs) == Success(Holds(JArr(recs)))
  {
    assert AfterSave(f, recs[0]) == Success(Holds(JArr([] + [recs[0]])));
    assert [] + [recs[0]] == [recs[0]];
    SavesAppendInOrder([recs[0]], recs[1..]);
    assert [recs[0]] + recs[1..] == recs;
  }

  /**
   * `saveSessionToLocalDB`: read the list (empty for a missing or blank file), push the
   * record, write the list back. A parse error, a non-array value or a write that fails
   * before the file is opened (`ioFault`) propagates and leaves the file as it was.
   */
  method SaveSessionToLocalDB(file: JsonFile, data: ExcelSaver.SessionData, ioFault: Option<string>)
    returns (err: Option<string>)
    modifies file
    ensures err.None? <==> ReadList(old(file.state)).Success? && ioFault.None?
    ensures err.None? ==> Success(file.state) == AfterSave(old(file.state), RecordOf(data))
    ensures err.Some? ==> file.state == old(file.state)
  {
    var all: seq<Value> := [];
    match file.state {
      case Absent =>
      case Blank =>
      case Corrupt(_) =>
        return Some(ReadList(file.state).error);
      case Holds(v) =>
        if !v.JArr? {
          return Some(ReadList(file.state).error);
        }
        all := v.items;
    }
    all := all + [RecordOf(data)];
    if ioFault.Some? {
      return ioFault;
    }
    file.state := Holds(JArr(all));
    err := None;
  }

  /**
   * `saveSessionToExcel` of lib/local-db.ts: the merge of lib/excel-saver.ts, with every
   * failure (loading the library, reading the workbook, opening it for writing, or the
   * merge itself) swallowed. When nothing fails the workbook holds the merged rows;
   * otherwise it is untouched.
   */
  method SaveSessionToExcel(file: ExcelFile, data: ExcelSaver.SessionData, ioFault: Option<string>)
    requires forall i :: 0 <= i < |file.rows| ==> Distinct(Columns(file.rows[i]))
    modifies file
    ensures !ExcelSaver.MergeFails(old(file.rows), data) && ioFault.None? ==>
      ExcelSaver.IsMerge(old(file.rows), data, file.rows)
    ensures ExcelSaver.MergeFails(old(file.rows), data) || ioFault.Some? ==> file.rows == old(file.rows)
  {
    if ioFault.Some? {
      return;
    }
    var merged := ExcelSaver.MergeRows(file.rows, data);
    if merged.Success? {
      file.rows := merged.value;
    }
  }
}

=== FILE: notifications.dfy ===
/**
 * The simulated live notifications of `components/LiveNotifications.tsx`: every eight
 * seconds the next message of the configured list joins the ones on screen, and once
 * all are shown the list is cleared and the cycle starts again.
 */
module Notifications {

  /** One interval callback's effect on the messages on screen. */
  function Next(all: seq<string>, shown: seq<string>): (r: seq<string>)
    ensures shown <= all ==> r <= all
    ensures |shown| < |all| ==> |r| == |shown| + 1 && r[..|shown|] == shown
    ensures |shown| >= |all| ==> r == []
  {
    if |shown| < |all| then shown + [all[|shown|]] else []
  }

  /** The messages on screen after `k` callbacks. */
  function Steps(all: seq<string>, shown: seq<string>, k: nat): seq<string> {
    if k == 0 then shown else Next(all, Steps(all, shown, k - 1))
  }

  /** Callbacks compose: `a` of them and then `b` more are `a + b` of them. */
  lemma {:induction false} StepsCompose(all: seq<string>, shown: seq<string>, a: nat, b: nat)
    ensures Steps(all, shown, a + b) == Steps(all, Steps(all, shown, a), b)
  {
    if b > 0 {
      StepsCompose(all, shown, a, b - 1);
    }
  }

  /**
   * Starting from an empty screen, the first `k` callbacks, up to the length of the list,
   * show its first `k` messages in list order.
   */
  lemma {:induction false} FillsUp(all: seq<string>, k: nat)
    requires k <= |all|
    ensures Steps(all, [], k) == all[..k]
  {
    if k > 0 {
      FillsUp(all, k - 1);
      assert all[..k - 1] + [all[k - 1]] == all[..k];
    }
  }

  /** The callback after the whole list is on screen clears it, so the cycle repeats every `|all| + 1` callbacks. */
  lemma Period(all: seq<string>, k: nat)
    ensures Steps(all, [], |all| + 1) == []
    ensures Steps(all, [], |all| + 1 + k) == Steps(all, [], k)
  {
    FillsUp(all, |all|);
    assert all[..|all|] == all;
    StepsCompose(all, [], |all| + 1, k);
  }

  /** The component's state: the configured messages and the ones on screen. */
  class Feed {
    const all: seq<string>
    var shown: seq<string>

    /** The screen always shows a prefix of the configured list. */
    ghost predicate Valid()
      reads this
    {
      shown <= all
    }

    constructor (all: seq<string>)
      ensures Valid()
      ensures this.all == all && shown == []
    {
      this.all := all;
      shown := [];
    }

    /** The interval callback: append the next message, or clear the screen once all are shown. */
    method OnInterval()
      requires Valid()
      modifies this
      ensures Valid()
      ensures shown == Next(all, old(shown))
    {
      if |shown| < |all| {
        shown := shown + [all[|shown|]];
      } else {
        shown := [];
      }
    }
  }
}

=== FILE: quizflow.dfy ===
/**
 * The quiz step cursor of `components/QuizFlow.tsx`: the current step, the answers given
 * so far keyed by step number, and the progress bar. The step list comes from the copy
 * configuration; only its length matters here. The 300 ms delay before advancing is
 * taken as an immediate step.
 */
module QuizFlow {

  /** `((currentStep + 1) / steps.length) * 100`, in exact arithmetic. */
  function Progress(step: int, stepCount: nat): (p: real)
    requires 0 <= step < stepCount
    ensures 0.0 < p <= 100.0
    ensures p == 100.0 <==> step == stepCount - 1
  {
    var p := (step + 1) as real / stepCount as real * 100.0;
    ProgressBounds(step, stepCount, p);
    p
  }

  lemma ProgressBounds(step: int, stepCount: nat, p: real)
    requires 0 <= step < stepCount
    requires p == (step + 1) as real / stepCount as real * 100.0
    ensures 0.0 < p <= 100.0
    ensures p == 100.0 <==> step == stepCount - 1
  {
    var q := (step + 1) as real / stepCount as real;
    assert q * stepCount as real == (step + 1) as real;
    if p == 100.0 {
      assert q == 1.0;
    }
  }

  /** Each step forward moves the progress bar strictly forward. */
  lemma ProgressGrows(step: int, stepCount: nat)
    requires 0 <= step && step + 1 < stepCount
    ensures Progress(step, stepCount) < Progress(step + 1, stepCount)
  {
    var n := stepCount as real;
    var a := (step + 1) as real / n;
    var b := (step + 2) as real / n;
    assert a * n == (step + 1) as real && b * n == (step + 2) as real;
    assert a < b;
  }

  /** The Back button is disabled on the first step. */
  predicate BackDisabled(step: int) {
    step == 0
  }

  /** The quiz component's state. */
  class Quiz {
    const stepCount: nat
    var currentStep: int
    var answers: map<int, string>

    /** The cursor always points at a step of the list. */
    ghost predicate Valid()
      reads this
    {
      0 <= currentStep < stepCount
    }

    /** A fresh quiz on the first step with no answers; the list must have a step to render. */
    constructor (stepCount: nat)
      requires stepCount > 0
      ensures Valid()
      ensures this.stepCount == stepCount && currentStep == 0 && answers == map[]
    {
      this.stepCount := stepCount;
      currentStep := 0;
      answers := map[];
    }

    /**
     * `handleAnswer`: the answer is stored under the current step, replacing any earlier
     * one there; the cursor then moves to the next step, unless this was the last step,
     * in which case the quiz reports completion and the cursor stays.
     */
    method HandleAnswer(answer: string) returns (completed: bool)
      requires Valid()
      modifies this
      ensures Valid()
      ensures answers == old(answers)[old(currentStep) := answer]
      ensures completed <==> old(currentStep) == stepCount - 1
      ensures !completed ==> currentStep == old(currentStep) + 1
      ensures completed ==> currentStep == old(currentStep)
    {
      answers := answers[currentStep := answer];
      if currentStep < stepCount - 1 {
        currentStep := currentStep + 1;
        completed := false;
      } else {
        completed := true;
      }
    }

    /** `handleBack`: one step back, or nothing on the first step, where the button is disabled; answers are kept. */
    method HandleBack()
      requires Valid()
      modifies this
      ensures Valid()
      ensures old(currentStep) > 0 ==> currentStep == old(currentStep) - 1
      ensures BackDisabled(old(currentStep)) ==> currentStep == old(currentStep)
      ensures answers == old(answers)
    {
      if currentStep > 0 {
        currentStep := currentStep - 1;
      }
    }
  }
}

=== FILE: route.dfy ===
/**
 * The Next.js handler `POST /api/save-email`: the same required-field check and
 * response shapes as the Flask backend, with JavaScript truthiness, and no storage.
 */
module SaveEmailRoute {
  import opened Wrappers
  import opened Json
  import opened Api
  import Backend

  /** The TypeError V8 raises when destructuring `null`. */
  const NullBodyMessage := "Cannot destructure property 'email' of 'body' as it is null."

  /**
   * `POST`. `body` is what `request.json()` gave, or the message of the error it threw;
   * `now` is `new Date().toISOString()`. Only `email` and `sessionId` are read; the other
   * five fields are only logged, and nothing is stored.
   */
  function Post(body: Result<Value, string>, now: string): (r: Response)
    ensures r.Failed? <==> body.Failure? || body.value == JNull
    ensures r.Failed? ==> r.error == FailedMessage
    ensures body.Failure? ==> r.details == body.error
    ensures body.Success? && body.value == JNull ==> r.details == NullBodyMessage
    ensures r.Rejected? ==> r.error == RequiredMessage
    ensures r.Saved? <==> body.Success? && body.value.JObj?
                          && JsTruthy(JsGet(body.value.fields, "email"))
                          && JsTruthy(JsGet(body.value.fields, "sessionId"))
    ensures r.Saved? ==> r.sessionId == body.value.fields["sessionId"] && r.timestamp == now
  {
    if body.Failure? then Failed(FailedMessage, body.error)
    else if body.value.JNull? then Failed(FailedMessage, NullBodyMessage)
    else if body.value.JObj? then
      var email := JsGet(body.value.fields, "email");
      var sessionId := JsGet(body.value.fields, "sessionId");
      if !JsTruthy(email) || !JsTruthy(sessionId) then Rejected(RequiredMessage)
      else Saved(sessionId.value, now)
    // A primitive or an array destructures to `undefined` fields.
    else Rejected(RequiredMessage)
  }

  /** No field other than `email` and `sessionId` affects the response. */
  lemma OnlyRequiredFieldsMatter(d1: map<string, Value>, d2: map<string, Value>, now: string)
    requires JsGet(d1, "email") == JsGet(d2, "email")
    requires JsGet(d1, "sessionId") == JsGet(d2, "sessionId")
    ensures Post(Success(JObj(d1)), now) == Post(Success(JObj(d2)), now)
  {
  }

  /**
   * When `email` and `sessionId` are strings or absent, the Next.js handler rejects
   * exactly the object bodies the Flask handler rejects.
   */
  lemma HandlersAgreeOnStrings(d: map<string, Value>, dumps: Value -> Result<string, string>, now: string)
    requires "email" in d ==> d["email"].JStr?
    requires "sessionId" in d ==> d["sessionId"].JStr?
    requires dumps(PyGet(d, "quizAnswers", JObj(map[]))).Success?
    ensures var x := Backend.Extract(Success(JObj(d)), dumps, now);
      x.Success? && (Post(Success(JObj(d)), now).Rejected? <==> !Backend.HasRequired(x.value))
  {
  }

  /**
   * The two handlers differ on an empty list: Python finds `[]` false and answers 400,
   * JavaScript finds `[]` true and answers 200.
   */
  lemma HandlersDisagreeOnEmptyList(dumps: Value -> Result<string, string>, now: string)
    requires dumps(JObj(map[])).Success?
    ensures var d := map["email" := JArr([]), "sessionId" := JStr("s1")];
      && Post(Success(JObj(d)), now).Saved?
      && !Backend.HasRequired(Backend.Extract(Success(JObj(d)), dumps, now).value)
  {
    var d := map["email" := JArr([]), "sessionId" := JStr("s1")];
    assert "quizAnswers" !in d;
  }
}

=== FILE: scratchcard.dfy ===
/**
 * The scratch-off card of `components/ScratchCard.tsx`: the share of the 230 x 230
 * overlay that has been scratched clear, and the reveal (confetti, then the modal) once
 * more than half of it is clear. Pixel data is RGBA, four bytes per pixel; a pixel
 * counts as clear when its alpha byte is below 128.
 */
module ScratchCard {
  import opened Wrappers

  newtype byte = x: int | 0 <= x < 256

  /** The canvas is 230 pixels square. */
  const Side: nat := 230
  const PixelCount: nat := Side * Side
  /** `getImageData(0, 0, 230, 230).data.length`. */
  const ImageBytes: nat := 4 * PixelCount

  /** How many of the first `n` pixels have an alpha byte below 128. */
  function Transparent(data: seq<byte>, n: nat): (c: nat)
    requires 4 * n <= |data|
    ensures c <= n
  {
    if n == 0 then 0
    else Transparent(data, n - 1) + (if data[4 * (n - 1) + 3] < 128 then 1 else 0)
  }

  /** Only the alpha bytes matter: two images that agree on them have the same count. */
  lemma {:induction false} AlphaOnly(a: seq<byte>, b: seq<byte>, n: nat)
    requires 4 * n <= |a| && 4 * n <= |b|
    requires forall k :: 0 <= k < n ==> a[4 * k + 3] == b[4 * k + 3]
    ensures Transparent(a, n) == Transparent(b, n)
  {
    if n > 0 {
      AlphaOnly(a, b, n - 1);
    }
  }

  /** A fully cleared image counts every pixel, a fully opaque one none. */
  lemma {:induction false} AllOrNothing(data: seq<byte>, n: nat)
    requires 4 * n <= |data|
    ensures (forall k :: 0 <= k < n ==> data[4 * k + 3] < 128) ==> Transparent(data, n) == n
    ensures (forall k :: 0 <= k < n ==> data[4 * k + 3] >= 128) ==> Transparent(data, n) == 0
  {
    if n > 0 {
      AllOrNothing(data, n - 1);
    }
  }

  /** `(transparent / total) * 100`, in exact arithmetic. */
  function Percent(count: nat, total: nat): (p: real)
    requires 0 < total && count <= total
    ensures 0.0 <= p <= 100.0
    ensures p > 50.0 <==> 2 * count > total
    ensures p == 100.0 <==> count == total
  {
    var p := count as real / total as real * 100.0;
    PercentFacts(count, total, p);
    p
  }

  lemma PercentFacts(count: nat, total: nat, p: real)
    requires 0 < total && count <= total
    requires p == count as real / total as real * 100.0
    ensures 0.0 <= p <= 100.0
    ensures p > 50.0 <==> 2 * count > total
    ensures p == 100.0 <==> count == total
  {
    var c, t := count as real, total as real;
    var q := c / t;
    assert q * t == c && p == q * 100.0;
    MoreThanHalf(q, t, c);
    Scale(1.0, q, t);
    Scale(0.0, q, t);
  }

  /** A ratio above one half: its numerator is more than half the denominator. */
  lemma MoreThanHalf(q: real, t: real, c: real)
    requires t > 0.0 && q * t == c
    ensures q > 0.5 <==> 2.0 * c > t
  {
    var d := 2.0 * q - 1.0;
    assert d * t == 2.0 * c - t;
    if d > 0.0 {
      assert d * t > 0.0;
    } else {
      assert d * t <= 0.0;
    }
  }

  /** Multiplying by a positive number keeps order and equality. */
  lemma Scale(a: real, b: real, t: real)
    requires t > 0.0
    ensures a < b <==> a * t < b * t
    ensures a == b <==> a * t == b * t
  {
    assert (b - a) * t == b * t - a * t;
    if a < b {
      assert (b - a) * t > 0.0;
    } else if b < a {
      assert (a - b) * t > 0.0;
    }
  }

  /** The scan of `getFilledPercentage`: every fourth byte from index 3, counting those below 128. */
  method CountTransparent(pixels: array<byte>) returns (transparent: nat)
    ensures transparent == Transparent(pixels[..], pixels.Length / 4)
  {
    transparent := 0;
    var i := 3;
    ghost var k := 0;
    while i < pixels.Length
      invariant i == 4 * k + 3 && 4 * k <= pixels.Length
      invariant transparent == Transparent(pixels[..], k)
    {
      if pixels[i] < 128 {
        transparent := transparent + 1;
      }
      i := i + 4;
      k := k + 1;
    }
  }

  /**
   * `getFilledPercentage`: 0 without a canvas or a 2D context, otherwise the share of
   * the image's pixels that are clear, as a percentage.
   */
  method FilledPercentage(image: Option<array<byte>>) returns (p: real)
    requires image.Some? ==> image.value.Length == ImageBytes
    ensures image.None? ==> p == 0.0
    ensures image.Some? ==> p == Percent(Transparent(image.value[..], PixelCount), PixelCount)
    ensures 0.0 <= p <= 100.0
  {
    if image.None? {
      return 0.0;
    }
    var transparent := CountTransparent(image.value);
    p := Percent(transparent, image.value.Length / 4);
  }

  /** More than half of the card is clear: the threshold of both the reveal and the fade. */
  predicate Revealed(percentage: real) {
    percentage > 50.0
  }

  /** The overlay canvas's opacity: hidden once more than half is scratched. */
  function CanvasOpacity(scratchPercentage: real): (o: int)
    ensures o == 0 || o == 1
    ensures o == 0 <==> Revealed(scratchPercentage)
  {
    if scratchPercentage > 50.0 then 0 else 1
  }

  /** The card component's state. */
  class Card {
    var scratchPercentage: real
    var showConfetti: bool
    var showModal: bool

    constructor ()
      ensures scratchPercentage == 0.0 && !showConfetti && !showModal
    {
      scratchPercentage := 0.0;
      showConfetti := false;
      showModal := false;
    }

    /**
     * `scratch`, given the image after the stroke has been erased: with no canvas or
     * context nothing changes; otherwise the percentage is stored, and the first time it
     * passes half the card the confetti starts and the modal opens (its 100 ms delay
     * taken as immediate). From then on the overlay is transparent.
     */
    method Scratch(image: Option<array<byte>>)
      requires image.Some? ==> image.value.Length == ImageBytes
      modifies this
      ensures image.None? ==>
        scratchPercentage == old(scratchPercentage) && showConfetti == old(showConfetti) && showModal == old(showModal)
      ensures image.Some? ==>
        scratchPercentage == Percent(Transparent(image.value[..], PixelCount), PixelCount)
      ensures image.Some? && Revealed(scratchPercentage) && !old(showModal) ==> showConfetti && showModal
      ensures !(image.Some? && Revealed(scratchPercentage) && !old(showModal)) ==>
        showConfetti == old(showConfetti) && showModal == old(showModal)
      ensures showModal && !old(showModal) ==> CanvasOpacity(scratchPercentage) == 0
    {
      if image.None? {
        return;
      }
      var percentage := FilledPercentage(image);
      scratchPercentage := percentage;
      if percentage > 50.0 && !showModal {
        showConfetti := true;
        showModal := true;
      }
    }
  }
}

=== FILE: selling.dfy ===
/**
 * The ten-minute discount countdown in the header of `components/SellingPage.tsx`: a
 * number of seconds ticked down once a second and shown as `MM : SS` while it is above
 * zero, the logo once it has run out.
 */
module Selling {
  import JsText

  /** `useState(600)`: ten minutes. */
  const InitialTimeLeft := 600

  /** The interval's updater: one second less, never below zero. */
  function Tick(prev: int): (next: int)
    ensures next >= 0
    ensures prev > 0 ==> next == prev - 1
    ensures prev <= 0 ==> next == 0
  {
    if prev <= 0 then 0 else prev - 1
  }

  /** The time left after `k` ticks. */
  function Ticks(t: int, k: nat): int {
    if k == 0 then t else Tick(Ticks(t, k - 1))
  }

  /** From any non-negative start the clock counts down by one per tick and then rests at zero. */
  lemma {:induction false} TicksCountDown(t: int, k: nat)
    requires t >= 0
    ensures Ticks(t, k) == if k <= t then t - k else 0
  {
    if k > 0 {
      TicksCountDown(t, k - 1);
    }
  }

  /** The header shows the countdown while time is left, the logo afterwards. */
  predicate ShowsCountdown(timeLeft: int) {
    timeLeft > 0
  }

  /** The offer's countdown is on screen for exactly the first 600 ticks. */
  lemma CountdownShownForTenMinutes(k: nat)
    ensures ShowsCountdown(Ticks(InitialTimeLeft, k)) <==> k < 600
  {
    TicksCountDown(InitialTimeLeft, k);
  }

  /** `Math.floor(timeLeft / 60)`. */
  function Minutes(timeLeft: int): int {
    timeLeft / 60
  }

  /** `timeLeft % 60`, whose sign follows the dividend in JavaScript. */
  function Seconds(timeLeft: int): int {
    if timeLeft >= 0 then timeLeft % 60 else -((-timeLeft) % 60)
  }

  /** Minutes and seconds split a non-negative count without loss, seconds as a clock field. */
  lemma SplitIsExact(timeLeft: int)
    requires timeLeft >= 0
    ensures Minutes(timeLeft) * 60 + Seconds(timeLeft) == timeLeft
    ensures 0 <= Seconds(timeLeft) <= 59 && Minutes(timeLeft) >= 0
  {
  }

  /** `` `${pad(minutes)} : ${pad(seconds)}` ``. */
  function FormattedTime(timeLeft: int): string {
    JsText.PadStart(JsText.IntToString(Minutes(timeLeft)), 2, '0') + " : "
      + JsText.PadStart(JsText.IntToString(Seconds(timeLeft)), 2, '0')
  }

  /**
   * Below 100 minutes the display is `MM : SS`: two digits, the separator, two digits,
   * and the two numbers read back give the time left.
   */
  lemma FormattedTimeReadsBack(timeLeft: int)
    requires 0 <= timeLeft < 6000
    ensures var r := FormattedTime(timeLeft);
      |r| == 7 && r[2..5] == " : " && JsText.AllDigits(r[..2]) && JsText.AllDigits(r[5..])
      && JsText.DecimalValue(r[..2]) * 60 + JsText.DecimalValue(r[5..]) == timeLeft
      && JsText.DecimalValue(r[5..]) <= 59
  {
    var mi, se := Minutes(timeLeft), Seconds(timeLeft);
    SplitIsExact(timeLeft);
    var m := JsText.PadStart(JsText.IntToString(mi), 2, '0');
    var s := JsText.PadStart(JsText.IntToString(se), 2, '0');
    JsText.PadTwoReadsBack(mi);
    JsText.PadTwoReadsBack(se);
    SeparatedParts(m, s);
    assert FormattedTime(timeLeft) == m + " : " + s;
  }

  lemma SeparatedParts(m: string, s: string)
    requires |m| == 2 && |s| == 2
    ensures var r := m + " : " + s;
      |r| == 7 && r[..2] == m && r[2..5] == " : " && r[5..] == s
  {
  }

  /** The page's countdown state. */
  class OfferTimer {
    var timeLeft: int
    /** Whether the interval is still installed. */
    var running: bool

    constructor ()
      ensures timeLeft == InitialTimeLeft && running
    {
      timeLeft := InitialTimeLeft;
      running := true;
    }

    /** One interval callback: tick, and clear the interval once the time is found at zero. */
    method OnInterval()
      requires running
      modifies this
      ensures timeLeft == Tick(old(timeLeft))
      ensures running <==> old(timeLeft) > 0
    {
      if timeLeft <= 0 {
        running := false;
        timeLeft := 0;
      } else {
        timeLeft := timeLeft - 1;
      }
    }
  }
}

=== FILE: session.dfy ===
/**
 * Per-tab session ids kept in `sessionStorage` (`lib/session.ts`). The storage is the
 * `SessionStorage` object; `Date.now()` and `Math.random().toString(36)` are parameters,
 * and `hasWindow` is `typeof window !== 'undefined'`.
 */
module Session {
  import opened Wrappers
  import JsText

  const StorageKey := "quiz_session_id"
  const CreatedKey := "quiz_session_id_created"
  const ServerSessionId := "server_session"
  const InvalidTime := "Invalid time value"
  /** The largest magnitude of a valid JavaScript time value, in milliseconds. */
  const MaxTimeMs := 8_640_000_000_000_000

  /** The instant `new Date(ms).toISOString()` renders; the calendar text itself is not modelled. */
  datatype IsoTime = IsoTime(ms: int)

  /** What `getSessionMetadata` returns; `createdAtIso` is absent on the server. */
  datatype Metadata = Metadata(sessionId: string, createdAt: int, createdAtIso: Option<IsoTime>)

  /** The random part: `Math.random().toString(36).substring(2, 15)`. */
  function RandomPart(randomText: string): (r: string)
    ensures |r| <= 13
  {
    JsText.Substring(randomText, 2, 15)
  }

  /**
   * `generateSessionId`: "session_", the millisecond timestamp, "_", and a random part
   * of at most 13 characters.
   */
  function GenerateSessionId(now: nat, randomText: string): (r: string)
    ensures var ts := JsText.NatToString(now);
      && |r| >= 9 + |ts| && |r| - (9 + |ts|) <= 13
      && r[..8] == "session_" && r[8..8 + |ts|] == ts && r[8 + |ts|] == '_'
  {
    "session_" + JsText.NatToString(now) + "_" + RandomPart(randomText)
  }

  /** `sessionStorage.getItem(key)` is truthy: present and not the empty string. */
  predicate Holds(items: map<string, string>, key: string) {
    key in items && items[key] != ""
  }

  /**
   * `getSessionMetadata`: reads storage and never writes it. Without a stored id it
   * returns a freshly generated one (timestamped `now`) that is not persisted; without a
   * stored creation time it uses `createdNow`, the separate `Date.now()` of line 58.
   * `toISOString` throws a RangeError when the creation time does not parse or is out
   * of range.
   */
  function GetSessionMetadata(hasWindow: bool, items: map<string, string>, now: nat, randomText: string,
                              createdNow: nat)
    : (r: Result<Metadata, string>)
    ensures !hasWindow ==> r == Success(Metadata(ServerSessionId, now, None))
    ensures r.Success? ==> r.value.sessionId != ""
    ensures hasWindow && r.Success? ==>
      r.value.sessionId == (if Holds(items, StorageKey) then items[StorageKey] else GenerateSessionId(now, randomText))
    ensures hasWindow && r.Success? ==> r.value.createdAtIso == Some(IsoTime(r.value.createdAt))
    ensures r.Failure? ==> r.error == InvalidTime
  {
    if !hasWindow then Success(Metadata(ServerSessionId, now, None))
    else
      var id := if Holds(items, StorageKey) then items[StorageKey] else GenerateSessionId(now, randomText);
      var createdText := if Holds(items, CreatedKey) then items[CreatedKey] else JsText.NatToString(createdNow);
      match JsText.ParseInt(createdText)
      case None => Failure(InvalidTime)
      case Some(ms) =>
        if ms < -MaxTimeMs || ms > MaxTimeMs then Failure(InvalidTime)
        else Success(Metadata(id, ms, Some(IsoTime(ms))))
  }

  /**
   * After `getSessionId` has stored an id and its creation time `t`, the metadata reads
   * back exactly that id and time.
   */
  lemma MetadataReadsBackStoredSession(items: map<string, string>, id: string, t: nat, now: nat, randomText: string,
                                       createdNow: nat)
    requires id != "" && t <= MaxTimeMs
    ensures GetSessionMetadata(true, items[StorageKey := id][CreatedKey := JsText.NatToString(t)], now, randomText, createdNow)
            == Success(Metadata(id, t, Some(IsoTime(t))))
  {
    JsText.ParseIntOfNatToString(t);
  }

  /** With no creation time stored, `createdAt` is the current time. */
  lemma CreatedAtFallsBackToNow(items: map<string, string>, now: nat, randomText: string, createdNow: nat)
    requires !Holds(items, CreatedKey) && createdNow <= MaxTimeMs
    ensures GetSessionMetadata(true, items, now, randomText, createdNow).Success?
    ensures GetSessionMetadata(true, items, now, randomText, createdNow).value.createdAt == createdNow
  {
    JsText.ParseIntOfNatToString(createdNow);
  }

  /** The browser's `sessionStorage` for one tab. */
  class SessionStorage {
    var items: map<string, string>

    /** A new tab: empty storage. */
    constructor ()
      ensures items == map[]
    {
      items := map[];
    }

    /**
     * `getSessionId`: without a window, the placeholder and no storage access; with a
     * stored id, that id and no write; otherwise a new id, stored with its creation
     * time. Afterwards (with a window) the returned id is the one stored, so an
     * immediate second call returns it again.
     */
    method GetSessionId(hasWindow: bool, now: nat, randomText: string, createdNow: nat) returns (id: string)
      modifies this
      ensures !hasWindow ==> id == ServerSessionId && items == old(items)
      ensures hasWindow && Holds(old(items), StorageKey) ==> id == old(items)[StorageKey] && items == old(items)
      ensures hasWindow && !Holds(old(items), StorageKey) ==>
        && id == GenerateSessionId(now, randomText)
        && items == old(items)[StorageKey := id][CreatedKey := JsText.NatToString(createdNow)]
      ensures hasWindow ==> Holds(items, StorageKey) && items[StorageKey] == id
    {
      if !hasWindow {
        return ServerSessionId;
      }
      if StorageKey in items && items[StorageKey] != "" {
        id := items[StorageKey];
      } else {
        id := GenerateSessionId(now, randomText);
        items := items[StorageKey := id];
        items := items[CreatedKey := JsText.NatToString(createdNow)];
      }
    }

    /** `clearSession`: both keys are removed and nothing else changes. */
    method ClearSession(hasWindow: bool)
      modifies this
      ensures !hasWindow ==> items == old(items)
      ensures hasWindow ==> items == old(items) - {StorageKey, CreatedKey}
      ensures hasWindow ==> !Holds(items, StorageKey) && !Holds(items, CreatedKey)
    {
      if hasWindow {
        items := items - {StorageKey};
        items := items - {CreatedKey};
      }
    }
  }
}

=== FILE: sheet.dfy ===
/**
 * The spreadsheet vocabulary shared by the two `saveSessionToExcel` functions and the
 * SQLite export script: a row is the ordered list of an object's properties (JavaScript
 * keeps property insertion order), the quiz-answer cell text, padding a row to a column
 * list, and the order of `Array.prototype.sort()` on strings.
 */
module Sheet {
  import opened Wrappers
  import opened Json
  import JsText

  const QuizPrefix := "Quiz Q"
  const EmptyCell := JStr("")

  /** One property of a row object: the column name and the cell value. */
  datatype Cell = Cell(column: string, value: Value)

  /** A row object, its properties in insertion order. */
  type Row = seq<Cell>

  /** `Object.keys(row)`. */
  function Columns(r: Row): (cs: seq<string>)
    ensures |cs| == |r| && forall i :: 0 <= i < |r| ==> cs[i] == r[i].column
  {
    seq(|r|, i requires 0 <= i < |r| => r[i].column)
  }

  lemma ColumnsAppend(r: Row, c: Cell)
    ensures Columns(r + [c]) == Columns(r) + [c.column]
  {
  }

  lemma ColumnsPrefix(r: Row, s: Row)
    requires r <= s
    ensures Columns(r) <= Columns(s)
  {
  }

  predicate Distinct<T(==)>(s: seq<T>) {
    forall i, j :: 0 <= i < j < |s| ==> s[i] != s[j]
  }

  /** `col in row`. */
  predicate Has(r: Row, col: string) {
    col in Columns(r)
  }

  /** `row[col]`, `None` for `undefined`. */
  function Lookup(r: Row, col: string): (v: Option<Value>)
    ensures v.None? <==> !Has(r, col)
    ensures v.Some? ==> Cell(col, v.value) in r
  {
    if r == [] then None
    else if r[0].column == col then Some(r[0].value)
    else
      assert Columns(r) == [r[0].column] + Columns(r[1..]);
      Lookup(r[1..], col)
  }

  /** In a row whose columns are distinct, a cell is what a read of its column returns. */
  lemma {:induction false} LookupCell(r: Row, i: nat)
    requires Distinct(Columns(r)) && i < |r|
    ensures Lookup(r, r[i].column) == Some(r[i].value)
  {
    if i > 0 {
      assert Columns(r[1..]) == Columns(r)[1..];
      assert r[0].column != r[i].column;
      LookupCell(r[1..], i - 1);
    }
  }

  /** The name of the column for quiz answer `key`. */
  function QuizColumn(key: string): string {
    QuizPrefix + key
  }

  /** The quiz columns of `keys`, in the same order. */
  function QuizColumns(keys: seq<string>): (cs: seq<string>)
    ensures |cs| == |keys| && forall i :: 0 <= i < |keys| ==> cs[i] == QuizColumn(keys[i])
  {
    seq(|keys|, i requires 0 <= i < |keys| => QuizColumn(keys[i]))
  }

  /** Distinct keys give distinct quiz columns. */
  lemma QuizColumnsDistinct(keys: seq<string>)
    requires Distinct(keys)
    ensures Distinct(QuizColumns(keys))
  {
    forall i, j | 0 <= i < j < |keys| ensures QuizColumn(keys[i]) != QuizColumn(keys[j]) {
      assert QuizColumn(keys[i])[|QuizPrefix|..] == keys[i];
      assert QuizColumn(keys[j])[|QuizPrefix|..] == keys[j];
    }
  }

  /**
   * The text of a quiz cell: '' for `undefined` and `null`, an array joined with ", ",
   * any other value through `String`.
   */
  function AnswerText(v: Option<Value>): string {
    if v.None? || v.value.JNull? then ""
    else if v.value.JArr? then ArrayJoin(v.value.items, ", ")
    else ToJsString(v.value)
  }

  /** A multiple-choice answer, a list of strings, reads as those strings joined with ", ". */
  lemma AnswerOfStringList(xs: seq<string>)
    ensures AnswerText(Some(JArr(seq(|xs|, i requires 0 <= i < |xs| => JStr(xs[i]))))) == JsText.Join(xs, ", ")
  {
    var vs := seq(|xs|, i requires 0 <= i < |xs| => JStr(xs[i]));
    var texts := seq(|vs|, i requires 0 <= i < |vs| => if vs[i].JNull? then "" else ToJsString(vs[i]));
    assert texts == xs;
  }

  /**
   * The loop `allColumns.forEach(col => { if (!(col in row)) row[col] = '' })` run on a copy
   * of `row`: the old cells stay first and unchanged, every column of `columns` is then
   * present, and each added cell is an empty cell for a column the row lacked.
   */
  method PadRow(row: Row, columns: seq<string>) returns (padded: Row)
    requires Distinct(Columns(row))
    ensures row <= padded
    ensures Distinct(Columns(padded))
    ensures forall c :: c in columns ==> Has(padded, c)
    ensures forall c :: Has(padded, c) ==> Has(row, c) || c in columns
    ensures forall i :: |row| <= i < |padded| ==> padded[i].value == EmptyCell && !Has(row, padded[i].column)
  {
    padded := row;
    var j := 0;
    while j < |columns|
      invariant 0 <= j <= |columns|
      invariant row <= padded
      invariant Distinct(Columns(padded))
      invariant forall c :: c in columns[..j] ==> Has(padded, c)
      invariant forall c :: Has(padded, c) ==> Has(row, c) || c in columns
      invariant forall i :: |row| <= i < |padded| ==> padded[i].value == EmptyCell && !Has(row, padded[i].column)
    {
      var col := columns[j];
      if !Has(padded, col) {
        ColumnsAppend(padded, Cell(col, EmptyCell));
        ColumnsPrefix(row, padded);
        padded := padded + [Cell(col, EmptyCell)];
      }
      assert columns[..j + 1] == columns[..j] + [col];
      j := j + 1;
    }
  }

  // ---- the default string order of Array.prototype.sort ----

  /** `a` sorts strictly before `b`: lexicographic order on character codes. */
  predicate Below(a: string, b: string) {
    if a == [] then b != []
    else if b == [] then false
    else if a[0] != b[0] then a[0] < b[0]
    else Below(a[1..], b[1..])
  }

  lemma {:induction false} BelowIrreflexive(a: string)
    ensures !Below(a, a)
  {
    if a != [] { BelowIrreflexive(a[1..]); }
  }

  lemma {:induction false} BelowTransitive(a: string, b: string, c: string)
    requires Below(a, b) && Below(b, c)
    ensures Below(a, c)
  {
    if a != [] && b != [] && c != [] && a[0] == b[0] && b[0] == c[0] {
      BelowTransitive(a[1..], b[1..], c[1..]);
    }
  }

  lemma {:induction false} BelowTotal(a: string, b: string)
    ensures a == b || Below(a, b) || Below(b, a)
  {
    if a != [] && b != [] && a[0] == b[0] {
      BelowTotal(a[1..], b[1..]);
      if a[1..] == b[1..] {
        assert a == [a[0]] + a[1..] && b == [b[0]] + b[1..];
      }
    }
  }

  predicate StrictlySorted(s: seq<string>) {
    forall i, j :: 0 <= i < j < |s| ==> Below(s[i], s[j])
  }

  lemma SortedIsDistinct(s: seq<string>)
    requires StrictlySorted(s)
    ensures Distinct(s)
  {
    forall i, j | 0 <= i < j < |s| ensures s[i] != s[j] {
      BelowIrreflexive(s[i]);
    }
  }

  lemma FirstIsElement(b: seq<string>)
    ensures b != [] ==> b[0] in b
  {
  }

  /** A set has one strictly sorted arrangement: two such lists with the same elements are equal. */
  lemma {:induction false} SortedUnique(a: seq<string>, b: seq<string>)
    requires StrictlySorted(a) && StrictlySorted(b)
    requires forall k :: k in a <==> k in b
    ensures a == b
    decreases |a|
  {
    if a != [] {
      assert a[0] in b;
      assert b != [];
      if a[0] != b[0] {
        assert b[0] in a;
        var i :| 0 <= i < |a| && a[i] == b[0];
        var j :| 0 <= j < |b| && b[j] == a[0];
        BelowTransitive(a[0], b[0], a[0]);
        BelowIrreflexive(a[0]);
      }
      SortedIsDistinct(a);
      SortedIsDistinct(b);
      forall k ensures k in a[1..] <==> k in b[1..] {
        if k in a[1..] {
          BelowIrreflexive(a[0]);
          assert k != a[0];
          assert k in b;
        }
        if k in b[1..] {
          BelowIrreflexive(b[0]);
          assert k != b[0];
          assert k in a;
        }
      }
      SortedUnique(a[1..], b[1..]);
      assert a == [a[0]] + a[1..] && b == [b[0]] + b[1..];
    } else {
      if b != [] {
        FirstIsElement(b);
        assert false;
      }
    }
  }

  /** Insert a new string into a strictly sorted list. */
  function InsertSorted(s: seq<string>, x: string): (r: seq<string>)
    requires StrictlySorted(s) && x !in s
    ensures StrictlySorted(r)
    ensures |r| == |s| + 1
    ensures forall y :: y in r <==> y in s || y == x
  {
    if s == [] then [x]
    else if Below(x, s[0]) then
      assert forall j :: 0 < j < |s| ==> Below(x, s[j]) by {
        forall j | 0 < j < |s| ensures Below(x, s[j]) { BelowTransitive(x, s[0], s[j]); }
      }
      [x] + s
    else
      BelowTotal(x, s[0]);
      var rest := InsertSorted(s[1..], x);
      assert forall y :: y in rest ==> Below(s[0], y);
      [s[0]] + rest
  }

  /**
   * `Array.from(keys).sort()`: the keys in ascending order, each once. A strict order
   * has one sorted arrangement, so the set's iteration order does not matter.
   */
  method SortKeys(keys: set<string>) returns (r: seq<string>)
    ensures StrictlySorted(r)
    ensures forall k :: k in r <==> k in keys
  {
    r := [];
    var rest := keys;
    while rest != {}
      invariant StrictlySorted(r)
      invariant forall k :: k in r ==> k in keys && k !in rest
      invariant forall k :: k in keys ==> k in r || k in rest
      invariant rest <= keys
      decreases rest
    {
      var k :| k in rest;
      r := InsertSorted(r, k);
      rest := rest - {k};
    }
  }

  /** The workbook file `test_1_database.xlsx`, seen as the rows `sheet_to_json` reads from it. */
  class ExcelFile {
    var rows: seq<Row>

    constructor (rows0: seq<Row>)
      ensures rows == rows0
    {
      rows := rows0;
    }
  }
}

=== FILE: sqltoexcel.dfy ===
/**
 * scripts/sql_to_excel.js: export every row of the `submissions` table to a fresh
 * workbook. Quiz keys are gathered from every answer object that parses, ordered
 * numerically when both keys start with a number and by `localeCompare` otherwise, and
 * each submission becomes one row with eight base cells and one cell per quiz key.
 */
module SqlToExcel {
  import opened Wrappers
  import opened Json
  import JsText
  import opened Sheet

  /**
   * One row of `SELECT * FROM submissions`. `answers` is what `Object.keys` and property
   * reads see of the value `JSON.parse` makes of `quiz_answers`: an object's fields; for
   * an array or a string, its index map ("0", "1", … to the elements or characters); for
   * a number or a boolean, the empty map. It is `None` when the text does not parse or
   * parses to `null`, where both `Object.keys` and the property read throw.
   */
  datatype Submission = Submission(
    sessionId: Value,
    email: Value,
    name: Value,
    privacyConsent: Value,
    marketingConsent: Value,
    createdAt: Value,
    submittedAt: Value,
    createdTimestamp: Value,
    answers: Option<map<string, Value>>)

  const BaseColumns: seq<string> :=
    ["Session ID", "Email", "Name", "Privacy Consent", "Marketing Consent", "Created At", "Submitted At",
     "Created Timestamp"]

  /** `k` is a key of the answers of one of the first `n` submissions. */
  ghost predicate KeySeenBefore(subs: seq<Submission>, n: int, k: string) {
    exists i :: 0 <= i < n && i < |subs| && subs[i].answers.Some? && k in subs[i].answers.value
  }

  /** `k` is a key of the answers of some submission whose answers parse. */
  ghost predicate HasAnswerKey(subs: seq<Submission>, k: string) {
    KeySeenBefore(subs, |subs|, k)
  }

  /** The set of quiz keys, in the order they were first added. */
  method CollectQuizKeys(subs: seq<Submission>) returns (keys: seq<string>)
    ensures Distinct(keys)
    ensures forall k :: k in keys <==> HasAnswerKey(subs, k)
  {
    keys := [];
    var i := 0;
    while i < |subs|
      invariant 0 <= i <= |subs|
      invariant Distinct(keys)
      invariant forall k :: k in keys <==> KeySeenBefore(subs, i, k)
    {
      if subs[i].answers.Some? {
        var m := subs[i].answers.value;
        var rest := m.Keys;
        while rest != {}
          invariant rest <= m.Keys
          invariant Distinct(keys)
          invariant forall k :: k in keys <==> KeySeenBefore(subs, i, k) || (k in m && k !in rest)
          decreases rest
        {
          var k :| k in rest;
          if k !in keys {
            keys := keys + [k];
          }
          rest := rest - {k};
        }
        assert forall k :: KeySeenBefore(subs, i + 1, k) <==> KeySeenBefore(subs, i, k) || k in m;
      } else {
        assert forall k :: KeySeenBefore(subs, i + 1, k) ==> KeySeenBefore(subs, i, k);
      }
      i := i + 1;
    }
  }

  /**
   * A quiz key with its numeric reading (`None` for NaN), read once per key. The script
   * reads keys with `parseInt`; the sorting functions below take the reading as a
   * parameter `parse`, and `Run` supplies `JsText.ParseInt`.
   */
  datatype SortKey = SortKey(text: string, num: Option<int>)

  /**
   * The sort comparator: the difference of the two `parseInt` values when both are
   * numbers, otherwise `a.localeCompare(b)`, which is a parameter.
   */
  function Compare(a: SortKey, b: SortKey, localeCompare: (string, string) -> int): int {
    if a.num.Some? && b.num.Some? then a.num.value - b.num.value else localeCompare(a.text, b.text)
  }

  predicate AllNumeric(s: seq<SortKey>) {
    forall i :: 0 <= i < |s| ==> s[i].num.Some?
  }

  /** Every key has a number and the numbers never decrease. */
  predicate NumericallySorted(s: seq<SortKey>) {
    AllNumeric(s) && forall i, j :: 0 <= i < j < |s| ==> s[i].num.value <= s[j].num.value
  }

  /**
   * Stable insertion of `x` into `s`: it goes after every element the comparator does
   * not place after it.
   */
  function Insert(s: seq<SortKey>, x: SortKey, localeCompare: (string, string) -> int): (r: seq<SortKey>)
    ensures multiset(r) == multiset(s) + multiset{x}
  {
    if s == [] then [x]
    else if Compare(s[|s| - 1], x, localeCompare) > 0 then
      var init := s[..|s| - 1];
      assert s == init + [s[|s| - 1]];
      Insert(init, x, localeCompare) + [s[|s| - 1]]
    else
      s + [x]
  }

  /** Every key of `s` has a number that is at most `bound`. */
  predicate NumericallyAtMost(s: seq<SortKey>, bound: int) {
    forall i :: 0 <= i < |s| ==> s[i].num.Some? && s[i].num.value <= bound
  }

  lemma InsertKeepsBound(s: seq<SortKey>, x: SortKey, bound: int, localeCompare: (string, string) -> int)
    requires NumericallyAtMost(s, bound) && x.num.Some? && x.num.value <= bound
    ensures NumericallyAtMost(Insert(s, x, localeCompare), bound)
  {
    var r := Insert(s, x, localeCompare);
    forall i | 0 <= i < |r| ensures r[i].num.Some? && r[i].num.value <= bound {
      assert r[i] in multiset(r);
      if r[i] != x {
        assert r[i] in multiset(s);
      }
    }
  }

  /** Appending a key no smaller than every key keeps a numerically sorted list sorted. */
  lemma AppendKeepsSorted(s: seq<SortKey>, x: SortKey)
    requires NumericallySorted(s) && x.num.Some? && NumericallyAtMost(s, x.num.value)
    ensures NumericallySorted(s + [x])
  {
  }

  /** Inserting a key that has a number keeps a numerically sorted list sorted. */
  lemma {:induction false} InsertKeepsSorted(s: seq<SortKey>, x: SortKey, localeCompare: (string, string) -> int)
    requires NumericallySorted(s) && x.num.Some?
    ensures NumericallySorted(Insert(s, x, localeCompare))
  {
    if s != [] {
      var last := s[|s| - 1];
      var init := s[..|s| - 1];
      assert s == init + [last];
      if Compare(last, x, localeCompare) > 0 {
        InsertKeepsSorted(init, x, localeCompare);
        InsertKeepsBound(init, x, last.num.value, localeCompare);
        AppendKeepsSorted(Insert(init, x, localeCompare), last);
      } else {
        AppendKeepsSorted(s, x);
      }
    }
  }

  /**
   * `Array.from(allQuizKeys).sort(comparator)`, as a stable insertion sort: a
   * rearrangement of the keys, in ascending numeric order when every key has a number.
   */
  function SortKeys(keys: seq<SortKey>, localeCompare: (string, string) -> int): (r: seq<SortKey>)
    ensures multiset(r) == multiset(keys)
    ensures AllNumeric(keys) ==> NumericallySorted(r)
    decreases |keys|
  {
    if keys == [] then []
    else
      var init := keys[..|keys| - 1];
      assert keys == init + [keys[|keys| - 1]];
      var sortedInit := SortKeys(init, localeCompare);
      if AllNumeric(keys) then
        InsertKeepsSorted(sortedInit, keys[|keys| - 1], localeCompare);
        Insert(sortedInit, keys[|keys| - 1], localeCompare)
      else
        Insert(sortedInit, keys[|keys| - 1], localeCompare)
  }

  /** A sequence without repetitions holds each value at most once. */
  lemma {:induction false} DistinctCountsOnce<T>(s: seq<T>, x: T)
    requires Distinct(s)
    ensures multiset(s)[x] <= 1
  {
    if s != [] {
      var init := s[..|s| - 1];
      assert s == init + [s[|s| - 1]];
      DistinctCountsOnce(init, x);
      if x == s[|s| - 1] {
        assert x !in init;
      }
    }
  }

  /** A value found at two positions occurs at least twice. */
  lemma RepeatCountsTwice<T>(s: seq<T>, i: nat, j: nat)
    requires i < j < |s| && s[i] == s[j]
    ensures multiset(s)[s[i]] >= 2
  {
    assert s == s[..i] + [s[i]] + s[i + 1..j] + [s[j]] + s[j + 1..];
  }

  /** A rearrangement of a sequence without repetitions has none either, and the same members. */
  lemma PermutationKeepsDistinct<T>(a: seq<T>, b: seq<T>)
    requires multiset(a) == multiset(b) && Distinct(a)
    ensures Distinct(b) && forall x :: x in a <==> x in b
  {
    forall x ensures x in a <==> x in b {
      assert x in a <==> x in multiset(a);
      assert x in b <==> x in multiset(b);
    }
    forall i, j | 0 <= i < j < |b| ensures b[i] != b[j] {
      if b[i] == b[j] {
        RepeatCountsTwice(b, i, j);
        DistinctCountsOnce(a, b[i]);
      }
    }
  }

  /** The texts of sort keys. */
  function Texts(s: seq<SortKey>): (ts: seq<string>)
    ensures |ts| == |s| && forall i :: 0 <= i < |s| ==> ts[i] == s[i].text
  {
    seq(|s|, i requires 0 <= i < |s| => s[i].text)
  }

  /** Every key reads as a number and those numbers never decrease. */
  predicate ParsesInOrder(keys: seq<string>, parse: string -> Option<int>) {
    (forall i :: 0 <= i < |keys| ==> parse(keys[i]).Some?) &&
    forall i, j :: 0 <= i < j < |keys| ==> parse(keys[i]).value <= parse(keys[j]).value
  }

  /** The texts of a numerically sorted list of keys read back as numbers in order. */
  lemma SortedTextsParseInOrder(sorted: seq<SortKey>, parse: string -> Option<int>)
    requires NumericallySorted(sorted)
    requires forall i :: 0 <= i < |sorted| ==> sorted[i].num == parse(sorted[i].text)
    ensures ParsesInOrder(Texts(sorted), parse)
  {
  }

  /**
   * The sorted key list: the collected keys, each once, numerically ordered when every
   * one of them starts with a number.
   */
  method SortQuizKeys(collected: seq<string>, parse: string -> Option<int>, localeCompare: (string, string) -> int)
    returns (keys: seq<string>)
    requires Distinct(collected)
    ensures Distinct(keys) && forall k :: k in keys <==> k in collected
    ensures (forall k :: k in collected ==> parse(k).Some?) ==> ParsesInOrder(keys, parse)
  {
    var keyed := seq(|collected|, i requires 0 <= i < |collected| => SortKey(collected[i], parse(collected[i])));
    var sorted := SortKeys(keyed, localeCompare);
    RearrangedKeys(collected, parse, keyed, sorted);
    keys := Texts(sorted);
    if forall k :: k in collected ==> parse(k).Some? {
      SortedTextsParseInOrder(sorted, parse);
    }
  }

  /** A rearrangement of the keyed quiz keys: its texts are the keys, each once, each with its own reading. */
  lemma RearrangedKeys(collected: seq<string>, parse: string -> Option<int>, keyed: seq<SortKey>, sorted: seq<SortKey>)
    requires Distinct(collected)
    requires |keyed| == |collected| && forall i :: 0 <= i < |keyed| ==> keyed[i] == SortKey(collected[i], parse(collected[i]))
    requires multiset(sorted) == multiset(keyed)
    ensures forall i :: 0 <= i < |sorted| ==> sorted[i].num == parse(sorted[i].text)
    ensures Distinct(Texts(sorted)) && forall k :: k in Texts(sorted) <==> k in collected
  {
    assert Distinct(keyed);
    PermutationKeepsDistinct(keyed, sorted);
    forall i | 0 <= i < |sorted| ensures sorted[i].num == parse(sorted[i].text) {
      assert sorted[i] in keyed;
    }
    var keys := Texts(sorted);
    forall k | k in keys ensures k in collected {
      var i :| 0 <= i < |keys| && keys[i] == k;
      assert sorted[i] in keyed;
    }
    forall k | k in collected ensures k in keys {
      var i :| 0 <= i < |collected| && collected[i] == k;
      assert keyed[i] in sorted;
    }
  }

  /** The eight base cells of a submission's row. */
  function BaseCells(sub: Submission): (cells: Row)
    ensures Columns(cells) == BaseColumns
  {
    [ Cell("Session ID", sub.sessionId),
      Cell("Email", sub.email),
      Cell("Name", if JsTruthy(Some(sub.name)) then sub.name else JStr("")),
      Cell("Privacy Consent", JStr(if JsTruthy(Some(sub.privacyConsent)) then "Yes" else "No")),
      Cell("Marketing Consent", JStr(if JsTruthy(Some(sub.marketingConsent)) then "Yes" else "No")),
      Cell("Created At", sub.createdAt),
      Cell("Submitted At", sub.submittedAt),
      Cell("Created Timestamp", sub.createdTimestamp) ]
  }

  /** The text of the quiz cell for `key`: '' throughout when the answers do not parse. */
  function QuizCell(sub: Submission, key: string): string {
    if sub.answers.None? then "" else AnswerText(JsGet(sub.answers.value, key))
  }

  /** The quiz cell of `sub` for `key`. */
  function AnswerCell(sub: Submission, key: string): (c: Cell)
    ensures c.column == QuizColumn(key)
  {
    Cell(QuizColumn(key), JStr(QuizCell(sub, key)))
  }

  /** `row` is the row of `sub`: the base cells, then one quiz cell per key in key order. */
  ghost predicate RowOf(sub: Submission, keys: seq<string>, row: Row) {
    |row| == |BaseColumns| + |keys|
    && BaseCells(sub) <= row
    && forall i :: 0 <= i < |keys| ==> row[|BaseColumns| + i] == AnswerCell(sub, keys[i])
  }

  lemma BaseIsNotQuiz(key: string)
    ensures QuizColumn(key) !in BaseColumns
  {
    assert QuizColumn(key)[0] == 'Q';
  }

  /** Appending the cell of the next key extends a row. */
  lemma RowStep(sub: Submission, keys: seq<string>, n: nat, row: Row)
    requires n < |keys| && RowOf(sub, keys[..n], row)
    ensures RowOf(sub, keys[..n + 1], row + [AnswerCell(sub, keys[n])])
  {
    var row' := row + [AnswerCell(sub, keys[n])];
    var ks := keys[..n + 1];
    forall i | 0 <= i < n + 1
      ensures row'[|BaseColumns| + i] == AnswerCell(sub, ks[i])
    {
      if i < n {
        assert ks[i] == keys[..n][i];
      }
    }
  }

  /** The columns of a submission's row: the base columns, then the quiz columns in key order. */
  lemma RowColumns(sub: Submission, keys: seq<string>, row: Row)
    requires RowOf(sub, keys, row)
    ensures Columns(row) == BaseColumns + QuizColumns(keys)
  {
    var base := BaseCells(sub);
    forall i | 0 <= i < |row| ensures Columns(row)[i] == (BaseColumns + QuizColumns(keys))[i] {
      if i < |BaseColumns| {
        assert row[i] == base[i];
        assert Columns(base)[i] == base[i].column;
      } else {
        assert row[i] == AnswerCell(sub, keys[i - |BaseColumns|]);
      }
    }
  }

  /** The row of one submission, built cell by cell. */
  method BuildRow(sub: Submission, keys: seq<string>) returns (row: Row)
    requires Distinct(keys)
    ensures RowOf(sub, keys, row)
    ensures Columns(row) == BaseColumns + QuizColumns(keys) && Distinct(Columns(row))
  {
    row := BaseCells(sub);
    var n := 0;
    while n < |keys|
      invariant 0 <= n <= |keys|
      invariant RowOf(sub, keys[..n], row)
    {
      var text := if sub.answers.None? then "" else AnswerText(JsGet(sub.answers.value, keys[n]));
      RowStep(sub, keys, n, row);
      row := row + [Cell(QuizColumn(keys[n]), JStr(text))];
      n := n + 1;
    }
    assert keys[..n] == keys;
    RowColumns(sub, keys, row);
    QuizColumnsDistinct(keys);
    forall k | k in keys { BaseIsNotQuiz(k); }
  }

  /** A row whose answers did not parse has '' in every quiz cell. */
  lemma UnparsedRowIsBlank(sub: Submission, keys: seq<string>, row: Row)
    requires sub.answers.None? && RowOf(sub, keys, row)
    ensures |row| == |BaseColumns| + |keys|
    ensures forall j :: |BaseColumns| <= j < |row| ==> row[j].value == EmptyCell
  {
    forall j | |BaseColumns| <= j < |row| ensures row[j].value == EmptyCell {
      assert row[j] == AnswerCell(sub, keys[j - |BaseColumns|]);
    }
  }

  /** Reading a quiz column of a submission's row gives that submission's answer text. */
  lemma RowReadsAnswers(sub: Submission, keys: seq<string>, row: Row, k: string)
    requires Distinct(Columns(row)) && RowOf(sub, keys, row) && k in keys
    ensures Lookup(row, QuizColumn(k)) == Some(JStr(QuizCell(sub, k)))
  {
    var i :| 0 <= i < |keys| && keys[i] == k;
    LookupCell(row, |BaseColumns| + i);
  }

  /** `{ wch: Math.max(col.length, 15) }` for each column. */
  function ColumnWidths(columns: seq<string>): (ws: seq<int>)
    ensures |ws| == |columns|
    ensures forall i :: 0 <= i < |columns| ==> ws[i] >= 15 && ws[i] >= |columns[i]|
    ensures forall i :: 0 <= i < |columns| ==> ws[i] == 15 || ws[i] == |columns[i]|
  {
    seq(|columns|, i requires 0 <= i < |columns| => if |columns[i]| > 15 then |columns[i]| else 15)
  }

  /** What the script writes: the ordered quiz keys, the columns, their widths and the rows. */
  datatype Export = Export(keys: seq<string>, columns: seq<string>, widths: seq<int>, rows: seq<Row>)

  ghost predicate IsExport(subs: seq<Submission>, parse: string -> Option<int>, e: Export) {
    Distinct(e.keys)
    && (forall k :: k in e.keys <==> HasAnswerKey(subs, k))
    && ((forall k :: k in e.keys ==> parse(k).Some?) ==> ParsesInOrder(e.keys, parse))
    && e.columns == BaseColumns + QuizColumns(e.keys)
    && e.widths == ColumnWidths(e.columns)
    && |e.rows| == |subs|
    && forall i :: 0 <= i < |subs| ==> RowOf(subs[i], e.keys, e.rows[i]) && Distinct(Columns(e.rows[i]))
  }

  /** The conversion: nothing for an empty table, otherwise one row per submission, in query order. */
  method Convert(subs: seq<Submission>, parse: string -> Option<int>, localeCompare: (string, string) -> int)
    returns (r: Option<Export>)
    ensures r.None? <==> subs == []
    ensures r.Some? ==> IsExport(subs, parse, r.value)
  {
    if subs == [] {
      return None;
    }
    var collected := CollectQuizKeys(subs);
    var keys := SortQuizKeys(collected, parse, localeCompare);
    var columns := BaseColumns + QuizColumns(keys);
    var rows := BuildRows(subs, keys);
    r := Some(Export(keys, columns, ColumnWidths(columns), rows));
  }

  /** One row per submission, in query order. */
  method BuildRows(subs: seq<Submission>, keys: seq<string>) returns (rows: seq<Row>)
    requires Distinct(keys)
    ensures |rows| == |subs|
    ensures forall m :: 0 <= m < |subs| ==> RowOf(subs[m], keys, rows[m]) && Distinct(Columns(rows[m]))
  {
    rows := [];
    var i := 0;
    while i < |subs|
      invariant 0 <= i <= |subs| && |rows| == i
      invariant forall m :: 0 <= m < i ==> RowOf(subs[m], keys, rows[m]) && Distinct(Columns(rows[m]))
    {
      var row := BuildRow(subs[i], keys);
      rows := rows + [row];
      i := i + 1;
    }
  }

  /**
   * The whole script: a failed query, or a write that fails before the file is opened
   * (`ioFault`), exits with 1; an empty table exits with 0 and writes nothing; otherwise
   * the workbook is replaced by the exported rows.
   */
  method Run(file: ExcelFile, query: Result<seq<Submission>, string>, localeCompare: (string, string) -> int,
             ioFault: Option<string>) returns (exitCode: int, written: Option<Export>)
    modifies file
    ensures exitCode == 0 <==> query.Success? && (query.value == [] || ioFault.None?)
    ensures exitCode != 0 ==> exitCode == 1
    ensures written.None? ==> file.rows == old(file.rows)
    ensures written.Some? <==> exitCode == 0 && query.value != []
    ensures written.Some? ==> IsExport(query.value, JsText.ParseInt, written.value) && file.rows == written.value.rows
  {
    if query.Failure? {
      return 1, None;
    }
    var e := Convert(query.value, JsText.ParseInt, localeCompare);
    if e.None? {
      return 0, None;
    }
    if ioFault.Some? {
      return 1, None;
    }
    file.rows := e.value.rows;
    return 0, e;
  }
}

=== FILE: wrappers.dfy ===
/** Optional values and failure-carrying results shared by every module of the model. */
module Wrappers {
  /** A value that may be absent (a missing key, JavaScript `undefined`). */
  datatype Option<+T> = None | Some(value: T)

  /** The outcome of an operation that can throw: the value, or the error's message. */
  datatype Result<+T, +E> = Success(value: T) | Failure(error: E)
}
